=== FILE: README.md ===
# cl-forge core in Dafny

This project models the pure core of cl-forge, a toolkit for Chilean identifiers and public data:

- **The RUT check character.** This is the weighted modulo-11 scheme:
  - the digits of the body are taken from the least significant end, with weights 2..7 repeating;
  - `11 - (sum mod 11)` maps to `'0'..'9'` or `'K'`.

  Around it sit `calculate_verifier` and `validate_rut`, both on a `u32` body and on a digit-string front-end with its structured errors.
- **The vehicle plate (`Ppu`) value object.** Covered here:
  - format detection (`LLLNN`, `LLLLNN`);
  - normalization (upper-case, `LLLNN` padded to `LLL0NN`);
  - the numeric body obtained by substituting letter codes;
  - the fail-fast constructor and the derived `complete` string.
- **The contract of the RUT generator.** It returns n distinct correlatives from `[min, max]`, each paired with its check character.
- **The mapping of every structured error to its Python exception class** (the `From<…> for PyErr` impls).
- **The input handling of the HTTP clients (`BaseClient`, `CmfClient`).** This covers:
  - API-key trimming and masking;
  - path checks;
  - response-format parsing (`ResponseFormat`, `CmfResponseFormat`);
  - the URL and query list a request is built from.

Modules:

| file | module | contents |
|---|---|---|
| results.dfy | `Results` | `Option`, `Result` with `:-` support |
| text.dfy | `Text` | Rust `char::is_whitespace`, `str::trim`, ASCII case mapping, character classes |
| errors.dfy | `Errors` | `PpuError`, `VerifierError`, `GenerateError` |
| rut.dfy | `Rut` | the check-character engine, decimal strings, the validator and its string front-end |
| plate.dfy | `Plate` | letter/digraph lookup, formats, normalization, numeric conversion, `Ppu` |
| generator.dfy | `Generator` | `generate` over an explicit draw stream |
| exceptions.dfy | `Exceptions` | the Python exception classes and the error-to-exception conversions |
| client_errors.dfy | `ClientErrors` | `ClientError`, `CmfClientError` (input-validation variants) |
| formats.dfy | `ResponseFormats` | `ResponseFormat` / `CmfResponseFormat` |
| clients.dfy | `Clients` | client construction, key masking, path checks, request construction |

The check character has a reference definition, `Rut.IsCheckChar(n, c)`: `c` is the one member of the alphabet that makes the weighted sum plus its value a multiple of 11. `Rut.CheckCharIsUnique` proves that the computed character is exactly that member.

Where the code and its tests disagree, the model follows the code:

- `calculate_verifier` and `validate_rut` take a `u32` (rust/verify/src/lib.rs:192,201). The string front-end (`Rut.ParseDigits`, `Rut.ValidateRutText`) is an additional layer built from the `EmptyDigits`/`InvalidDigits` variants of rust/rs_verify/src/errors.rs. The test suite calls it with strings.
- `Ppu.numeric` is a `u32` (rust/verify/src/lib.rs:123), while the test suite expects `"069455"`. The model keeps the integer 69455 and proves that its six-digit zero-padded rendering is `"069455"` (`Plate.NumericPHZF55`).
- The base crate's `ClientError` (rust/base/src/errors.rs) has no `UnsupportedFormat` variant, but both enums files construct one. The model's `ClientError` includes it, with the `expected` and `actual` fields the enums files use.

## Model

| member | source | states |
|---|---|---|
| Rut.Remainder | rust/rs_verify/src/errors.rs:40-41 | `11 - (sum mod 11)` always lies in 1..11, so the character mapping never reaches its defensive error |
| Rut.VerifierOf | rust/rs_verify/src/errors.rs:37-41 | a remainder maps to a character exactly when it lies in 0..11; the character is in the alphabet '0'..'9','K' and its value is the remainder mod 11; otherwise the error is `UnexpectedComputation` |
| Rut.CalculateVerifier | rust/verify/src/lib.rs:191-197 | `calculate_verifier` never fails and returns a character satisfying the reference modulo-11 equation |
| Rut.CheckCharIsUnique | rust/verify/src/lib.rs:191-206 | both directions: a character satisfies the modulo-11 equation iff it is the one `calculate_verifier` returns |
| Rut.WeightedSumReadsDigits | tests/test_verify.py:14-20 | the checksum sum computed on the number equals the sum read off its digit string from the least significant digit, weights 2..7 repeating (the reference reading of `Rut.WeightedSum`) |
| Rut.CheckFromSum | rust/verify/src/lib.rs:191-197 | given the weighted sum, the character completing it to a multiple of 11 is the computed check character |
| Rut.VerifierOf12345678 | tests/test_verify.py:15 | 12345678 has check character '5' |
| Rut.VerifierOf11222333 | tests/test_verify.py:16 | 11222333 has check character '9' |
| Rut.VerifierOf9000000 | tests/test_verify.py:17 | 9000000 has check character '4' |
| Rut.VerifierOf1 | tests/test_verify.py:18 | 1 has check character '9' |
| Rut.VerifierOf18305086 | tests/test_verify.py:19 | 18305086 has check character '9' |
| Rut.VerifierOf14682029 | tests/test_verify.py:20 | 14682029 has check character '8' |
| Rut.SumOf12345678 | tests/test_verify.py:15 | the weighted sum of 12345678 is 138 |
| Rut.SumOf11222333 | tests/test_verify.py:16 | the weighted sum of 11222333 is 68 |
| Rut.SumOf9000000 | tests/test_verify.py:17 | the weighted sum of 9000000 is 18 |
| Rut.SumOf18305086 | tests/test_verify.py:19 | the weighted sum of 18305086 is 101 |
| Rut.SumOf14682029 | tests/test_verify.py:20 | the weighted sum of 14682029 is 135 |
| Rut.DigitChar | rust/rs_verify/src/errors.rs:34-35 | a digit 0..9 becomes an ASCII digit character whose value is that digit |
| Rut.Render | tests/test_verify.py:27 | the zero-padded rendering has exactly the requested width and only digits |
| Rut.RenderParseDecimal | tests/test_verify.py:27 | rendering a digit string's value at the string's width restores the string, leading zeros included |
| Rut.DecimalString | rust/rs_verify/src/errors.rs:9-10 | the `Display` of an unsigned integer is a non-empty digit string with no leading zero (except "0") |
| Rut.ParseDecimalString | rust/rs_verify/src/errors.rs:9-10 | reading back a displayed number gives the number |
| Rut.LeadingZeroIgnored | rust/rs_verify/src/errors.rs:34-35 | a leading '0' keeps a digit string all-digit and does not change its value |
| Rut.ParseDigits | rust/rs_verify/src/errors.rs:28-35 | empty digits give `EmptyDigits`, and only empty input does; a non-digit or a value beyond u32 gives `InvalidDigits` carrying the input; success reads the digits in base 10 |
| Rut.CalculateVerifierText | rust/verify/src/lib.rs:191-197 | `calculate_verifier` on a digit string succeeds exactly when the digits parse; the result is the check character of their value; otherwise the error is the parse error |
| Rut.LeadingZeroKeepsVerifier | tests/test_verify.py:14-20 | zero-padding the digits neither changes whether they are accepted nor the check character |
| Rut.ParseVerifier | rust/rs_verify/src/errors.rs:31-38 | empty verifier is `EmptyVerifier`; anything but one character in '0'..'9','K','k' is `InvalidVerifier` carrying the input; 'k' reads as 'K' |
| Rut.ValidateRut | rust/verify/src/lib.rs:200-206 | fails exactly when the verifier is malformed, with that error; otherwise true iff the candidate (upper-cased) is the check character |
| Rut.ValidateRutText | rust/rs_verify/src/errors.rs:27-38 | empty digits are reported before an empty verifier, and both before malformed digits; well-formed digits defer to `validate_rut` |
| Rut.ValidateAcceptsComputed | tests/test_verify.py:4-8 | every body validates against its own computed check character |
| Rut.ValidateRefusesOthers | tests/test_verify.py:10-12 | every other alphabet member is refused with `false`, not an error |
| Rut.ValidateRutOracle | tests/test_verify.py:4-12 | the six validation scenarios: four accepted pairs and '0','K' refused for 12345678 |
| Rut.Validate12345678 | tests/test_verify.py:5-12 | "12345678" validates with "5" and is refused with "0" and "K" |
| Rut.Validate11222333 | tests/test_verify.py:6 | "11222333" validates with "9" |
| Rut.Validate9000000 | tests/test_verify.py:7 | "9000000" validates with "4" |
| Rut.Parse12345678 | tests/test_verify.py:5 | the string "12345678" reads as 12345678 |
| Rut.Parse11222333 | tests/test_verify.py:6 | the string "11222333" reads as 11222333 |
| Rut.Parse9000000 | tests/test_verify.py:7 | the string "9000000" reads as 9000000 |
| Plate.LookupLetter | rust/rs_verify/src/errors.rs:9-16 | empty input is `EmptyLetter`; more than one character is `InvalidLength(1, len, input)`; an unmapped letter is `UnknownLetter`; each iff its condition; success is the table's code for the upper-cased letter |
| Plate.LookupDigraph | rust/rs_verify/src/errors.rs:9-22 | empty input is `EmptyDigraph`; a length other than 2 is `InvalidLength(2, len, input)`; an unmapped pair is `UnknownDigraph`; each iff its condition; success is the table's code (no modelled layout calls it) |
| Plate.LookupLetterIgnoresCase | rust/rs_verify/src/errors.rs:12-13 | a letter and its upper-case form look up the same code |
| Plate.LookupDigraphIgnoresCase | rust/rs_verify/src/errors.rs:18-22 | a digraph and its upper-case form either both look up the same code or both fail |
| Plate.UpperKeepsShape | rust/rs_verify/src/errors.rs:6-7 | upper-casing neither creates nor destroys a letters-then-digits shape |
| Plate.GetPpuFormat | rust/verify/src/lib.rs:138 | in this model: `LLLLNN` iff four letters then two digits; `LLLNN` iff three letters then two digits; a detected layout's tag describes the plate's shape; any other plate is `UnknownFormat` carrying the plate as given |
| Plate.NormalizePpu | tests/test_verify.py:29-37 | succeeds iff the format is known, else `UnknownFormat`; the result is canonical; `LLLLNN` plates are upper-cased; `LLLNN` plates are upper-cased with '0' inserted before the digits |
| Plate.FormatDefinedWhenNormalized | rust/verify/src/lib.rs:137-138 | when normalization succeeds, format detection succeeds too, so the `unwrap` cannot panic |
| Plate.UpperIdempotent | tests/test_verify.py:37 | upper-casing twice is upper-casing once |
| Plate.NormalizeRejectsPaddedForm | tests/test_verify.py:29-36 | the padded normal form of a three-letter plate (e.g. "BBC012") is not a recognized layout, so normalizing it again fails with `UnknownFormat` |
| Plate.NormalizeIdempotentOnFourLetters | tests/test_verify.py:24-37 | a four-letter plate normalizes to its upper-case form, and normalizing that again changes nothing |
| Plate.Substitute | rust/rs_verify/src/errors.rs:12-13 | every letter is replaced by its code and every digit kept; fails iff some letter is unmapped, with `UnknownLetter` naming one such letter |
| Plate.PpuToNumeric | rust/verify/src/lib.rs:139 | succeeds iff substitution does; the value fits six digits (so a u32) and its zero-padded six-digit rendering is the substituted string |
| Plate.PpuFormat.AsStr | rust/verify/src/lib.rs:144-147 | the format tag has one 'L' per leading letter, then "NN" |
| Plate.Ppu.Format | rust/verify/src/lib.rs:144-147 | the `format` getter returns "LLLNN" exactly for three-letter plates and "LLLLNN" exactly for four-letter plates |
| Plate.Ppu.Complete | rust/verify/src/lib.rs:149-152 | `complete` is the normalized form, then '-', then the verifier, and nothing else |
| Plate.NewPpu | rust/verify/src/lib.rs:134-142 | all-or-nothing: succeeds iff normalization and conversion do, otherwise the first failure; stores raw verbatim, the numeric of the normalized form, the detected format and a check character of the numeric body |
| Plate.ConstructedPpuIsConsistent | rust/verify/src/lib.rs:139-152 | a constructed plate's verifier is `calculate_verifier(numeric)`; `complete` is normalized, '-', verifier, and its last character validates against numeric |
| Plate.NewPpuFromParts | rust/verify/src/lib.rs:134-142 | the constructor assembles exactly the values its four steps compute |
| Plate.UpperBBC12 | tests/test_verify.py:31-36 | "bbc12" and "BBC12" upper-case to "BBC12" |
| Plate.UpperBBCD12 | tests/test_verify.py:37 | "bbcd12" upper-cases to "BBCD12" |
| Plate.NormalizeOracle | tests/test_verify.py:35-37 | `normalize_ppu("bbc12")` is "BBC012" and `normalize_ppu("bbcd12")` is "BBCD12" |
| Plate.PpuOraclePHZF55 | tests/test_verify.py:22-27 | `Ppu("PHZF55")` has normalized "PHZF55", numeric 69455, verifier 'K', format `LLLLNN`, for every table with P,H,Z,F coded 0,6,9,4 |
| Plate.CompletePHZF55 | tests/test_verify.py:26 | that plate's `complete` is "PHZF55-K" |
| Plate.NormalizePHZF55 | tests/test_verify.py:24 | "PHZF55" normalizes to itself, format `LLLLNN` |
| Plate.NumericPHZF55 | tests/test_verify.py:27 | "PHZF55" converts to 69455, whose six-digit rendering is "069455" |
| Plate.SubstitutePHZF55 | tests/test_verify.py:27 | "PHZF55" substitutes to "069455" |
| Plate.VerifierOf69455 | tests/test_verify.py:25 | 69455 has check character 'K' |
| Plate.Parse069455 | tests/test_verify.py:27 | "069455" reads as 69455 |
| Plate.SumOf69455 | tests/test_verify.py:25 | the weighted sum of 69455 is 122 |
| Plate.PpuOracleBBC12 | tests/test_verify.py:29-33 | `Ppu("BBC12")` is built, normalized "BBC012", format "LLLNN", for any table mapping B and C |
| Plate.SubstituteBBC012 | tests/test_verify.py:32 | "BBC012" is canonical and converts whenever B and C are mapped |
| Plate.NormalizeBBC12 | tests/test_verify.py:31-33 | "BBC12" normalizes to "BBC012" with format `LLLNN` |
| Generator.Range | rust/verify/src/lib.rs:74-77 | the range lists min..max in order, max-min+1 values (none when inverted) |
| Generator.RangeMembership | rust/verify/src/lib.rs:74-77 | a value is in the range iff it lies between the bounds |
| Generator.RemoveAtFacts | rust/verify/src/lib.rs:74-77 | removal keeps the pool duplicate-free, drops the drawn value, adds nothing, and is a multiset split |
| Generator.Sample | rust/verify/src/lib.rs:74-77 | drawing k values without replacement gives k distinct pool members; drawing the whole pool gives a permutation of it |
| Generator.Generate | rust/verify/src/lib.rs:209-231 | `InvalidRange` iff min > max; `InvalidInput` iff n <= 0 or min < 0 on a proper range; `InsufficientRange(n, size)` iff the range is smaller than n; never `UnexpectedGeneration`; success is n distinct in-range correlatives with their check characters |
| Generator.DrawBatch | rust/verify/src/lib.rs:218-226 | a draw on checked arguments is a valid batch |
| Generator.GenerateExhaustsRange | rust/verify/src/lib.rs:74-77 | asking for exactly the range's size succeeds and returns every value of the range once |
| Generator.Pairs | rust/verify/src/lib.rs:221-225 | each correlative is paired, in order, with its check character |
| Exceptions.PpuMessage | rust/rs_verify/src/errors.rs:5-23 | each plate error's text ends with '.', and quotes its plate, letter, digraph or characters verbatim |
| Exceptions.VerifierMessage | rust/rs_verify/src/errors.rs:26-42 | each verifier error's text ends with '.', and quotes the rejected digits or verifier verbatim |
| Exceptions.FromPpuError | rust/verify/src/lib.rs:83-94 | each plate error raises the class of the same name, a subclass of `PpuException`, with the error's display text |
| Exceptions.FromVerifierError | rust/verify/src/lib.rs:96-104 | each verifier error raises the class of the same name, a subclass of `VerifierException`, with the error's display text |
| Exceptions.FromGenerateError | rust/verify/src/lib.rs:106-115 | each generator error raises the class of the same name, a subclass of `GenerateException`, with the error's display text |
| Exceptions.FamiliesAreDisjoint | rust/verify/src/lib.rs:16-81 | the three conversions never share a class: each error family lands in its own hierarchy |
| Exceptions.FromCmfClientError | rust/rs_cmf/src/lib.rs:27-43 | `EmptyPath`, `EmptyApiKey`, `InvalidPath` raise the same-named subclasses of `CmfClientException`; a wrapped base error, and only that, is passed on unchanged |
| ResponseFormats.ResponseFormat.AsStr | rust/base/src/enums.rs:16-21 | each wire name is non-empty, lower-case and has nothing to trim, so it is already in the form the parser compares |
| ResponseFormats.Default | rust/base/src/enums.rs:36-40 | the default format is the first variant of `ALL`, JSON |
| ResponseFormats.Values | rust/base/src/enums.rs:11-33 | `values()` is exactly "'json', 'xml'" |
| ResponseFormats.AllListsEveryVariantOnce | rust/cmf/src/enums.rs:11-33 | `ALL` holds every variant exactly once and no two variants share a wire name |
| ResponseFormats.ParseFormat | rust/base/src/enums.rs:42-55 | an accepted input's lower-cased, trimmed form is the variant's wire name; a refused input matches no wire name and yields `UnsupportedFormat(values(), input as given)` |
| ResponseFormats.ParseFormatRoundTrip | rust/base/src/enums.rs:16-48 | every wire name parses back to its variant |
| ResponseFormats.ParseFormatIgnoresCaseAndPadding | rust/cmf/src/enums.rs:45-48 | any casing of a wire name, padded with whitespace on both sides, parses to its variant |
| ResponseFormats.ParseOptionalBase | rust/base/src/enums.rs:57-68 | a given string is parsed; a missing one is `UnsupportedFormat(values(), "None")` |
| ResponseFormats.ParseOptionalCmf | rust/cmf/src/enums.rs:36-66 | a given string is parsed; a missing one is the default, `Json` |
| ResponseFormats.OptionalParsersDifferOnlyOnNone | rust/cmf/src/enums.rs:57-66 | the two optional parsers agree exactly on given strings |
| Text.Trim | rust/base/src/native.rs:21 | the trimmed string is no longer than the input and starts and ends with non-whitespace when not empty |
| Text.TrimBetween | rust/base/src/native.rs:21 | trim keeps exactly the part between a whitespace prefix and a whitespace suffix |
| Text.TrimIgnoresPadding | rust/base/src/enums.rs:46 | whitespace added around a string never changes its trim |
| Text.TrimOfTrimmed | rust/base/src/native.rs:45 | a string with no whitespace at either end is its own trim |
| Text.TrimEmptyIffBlank | rust/base/src/native.rs:21-25 | the trim is empty iff the string is all whitespace |
| Text.TrimIdempotent | rust/base/src/native.rs:45 | trimming twice is trimming once |
| Text.LowerKeepsWhitespace | rust/base/src/enums.rs:46 | lower-casing leaves whitespace unchanged |
| Clients.CheckPath | rust/rs_cmf/src/lib.rs:107-114 | empty path iff the path is blank; missing '/' iff non-blank and the trimmed path does not start with '/'; an accepted path is the trimmed path |
| Clients.CheckPathIgnoresPadding | rust/base/src/native.rs:45-53 | whitespace around a path never changes the verdict or the accepted path |
| Clients.CheckPathIdempotent | rust/base/src/native.rs:45-53 | an accepted path is accepted again unchanged |
| Clients.NewBaseClient | rust/base/src/native.rs:16-38 | fails iff the key is blank, with `EmptyApiKey`; stores the trimmed key (non-empty, already trimmed) and the base URL unchanged |
| Clients.NewBaseClientIgnoresPadding | rust/base/src/native.rs:21 | whitespace around the key never changes the client built |
| Clients.NewBaseClientRebuilds | rust/base/src/native.rs:33-37 | building from a stored key and URL gives the same client back |
| Clients.BaseRequest | rust/base/src/native.rs:40-53 | `EmptyPath` and `InvalidPath` exactly as the path rule says, `EmptyPath` first; otherwise the URL is the base URL followed by the trimmed path, and the query is passed unchanged |
| Clients.NewCmfClient | rust/rs_cmf/src/lib.rs:57-78 | fails iff the key is blank, with `EmptyApiKey`; stores the trimmed key |
| Clients.ClientsAgreeOnKeys | rust/rs_cmf/src/lib.rs:58-63 | both clients accept the same keys and store the same trimmed key |
| Clients.Utf8Len | rust/rs_cmf/src/lib.rs:83 | the byte length is at least the character count |
| Clients.BytePrefix | rust/rs_cmf/src/lib.rs:84 | a byte slice that succeeds is a character prefix filling exactly that many bytes; it fails (Rust panics) only when no character prefix fills exactly that many bytes |
| Clients.MaskAsWritten | rust/rs_cmf/src/lib.rs:80-89 | the getter as written panics exactly when the key is longer than 5 bytes and byte 5 falls inside a character; a key of at most 5 bytes is shown whole; otherwise the shown part is the character prefix of exactly 5 bytes, followed by "..." |
| Clients.Mask | rust/rs_cmf/src/lib.rs:80-89 | the masked key is the first five characters (the whole key when shorter) followed by "..." |
| Clients.MaskHidesTail | rust/rs_cmf/src/lib.rs:80-89 | keys that share their first five characters mask identically |
| Clients.MaskAgreesOnAscii | rust/rs_cmf/src/lib.rs:80-89 | on ASCII keys the getter as written computes the mask |
| Clients.MaskAsWrittenPanics | rust/rs_cmf/src/lib.rs:83-84 | "ñññ" makes the getter as written panic, while the mask is "ñññ..." |
| Clients.MaskTestKey | rust/rs_cmf/src/lib.rs:80-89 | "test_key" masks to "test_..." |
| Clients.Repr | rust/rs_cmf/src/lib.rs:91-97 | `__repr__` built on the intended mask (`Clients.Mask`): it opens with `CmfClient(api_key='`, closes with the base URL followed by `')`, shows the key's first (up to five) characters right after the opening, and adds between 0 and 8 characters of mask to the 34 of the fixed frame |
| Clients.ReprAsWritten | rust/rs_cmf/src/lib.rs:91-97 | `__repr__` as written goes through the getter: it panics exactly when `Clients.MaskAsWritten` does; otherwise it shows exactly the getter's text between the same opening and closing frame, 34 characters plus the getter's text and the URL |
| Clients.ReprAsWrittenAgreesOnAscii | rust/rs_cmf/src/lib.rs:91-97 | on an ASCII key the representation as written is the intended one |
| Clients.ReprAsWrittenPanics | rust/rs_cmf/src/lib.rs:94 | a client whose key is "ñññ" makes `__repr__` as written panic, whatever its URL |
| Clients.ReprHidesKeyTail | rust/rs_cmf/src/lib.rs:91-97 | the representation never depends on the key past its fifth character |
| Clients.CmfRequest | rust/rs_cmf/src/lib.rs:99-131 | path errors first; then a refused format, wrapped as a base error; otherwise the URL is the base URL plus the trimmed path and the query is ("apikey", key), ("formato", format), then the caller's parameters in order |
| Clients.CmfRequestDefaultsToJson | rust/rs_cmf/src/lib.rs:116-122 | without a format the request asks for "json" |
| Clients.PathErrorsComeFirst | rust/rs_cmf/src/lib.rs:107-117 | a bad path gives the same error whatever format is given |
| Clients.ClientsAgreeOnUrls | rust/rs_cmf/src/lib.rs:119 | the two clients build the same URL for the same base URL and path |

## Left out

- Network I/O: the `reqwest` session, timeout and user agent, sending the request, status and body handling, and the `HttpError`, `BadStatus` and `ConnectError` variants. These are external effects; the model stops at the `Request` a client would send.
- JSON and XML decoding of responses (rust/rs_cmf/src/lib.rs:133-182). These are foreign library calls.
- PyO3 module and exception registration (rust/verify/src/lib.rs:234-263) and the Python re-export modules. This is binding plumbing; the Python-side exception names drift (`EmptyLetters` vs `EmptyLetter`).
- The `__repr__` of `Ppu` (rust/verify/src/lib.rs:154-170). It is display formatting only; the `complete` string it includes is modelled.
- The pseudo-random generator behind `generate`'s seed. It is replaced by a draw stream `draw: nat -> nat`, so the contract holds for every seed.
- The concrete letter and digraph code tables and the set of format patterns. rust/verify/src/utils.rs and rust/verify/src/constants.rs are not part of this model; the tables are a parameter (`Plate.Tables`). The only formats modelled are `LLLNN` and `LLLLNN`. Stripping of separators is not modelled.
- The crate constants `BASE_URL` and `USER_AGENT` of the financial-regulator client are not part of this model. The base URL is a construction parameter of `Clients.CmfClient`.
- Full Unicode case mapping: `to_lowercase` and the plate upper-casing are modelled on ASCII. For the wire names "json" and "xml" this is exact: the only non-ASCII characters whose lower case contains an ASCII letter are U+212A (to 'k') and U+0130 (to 'i' followed by U+0307). Neither 'k' nor 'i' occurs in "json" or "xml", so the ASCII model accepts exactly the inputs the code accepts.
- The `Display` texts of `GenerateError` and of `CmfClientError`. Their definitions are not part of this model, so `Exceptions.FromGenerateError` takes the text as a parameter.
- The base crate's own conversion of a `ClientError` into a Python exception. `Exceptions.FromCmfClientError` returns `Delegated` for it.
- The conversion of query parameters (rust/rs_cmf/src/lib.rs:125-131): keys that are not strings raise a Python `TypeError`, and values are converted with Python `str()`. Both are foreign calls, so the model's parameters are string pairs that are already converted.
- Plate.GetPpuFormat: only the two layouts the test suite pins down (`LLLNN`, `LLLLNN`) are recognized. Digraph-coded plates, which the `UnknownDigraph`/`EmptyDigraph` errors imply, are refused with `UnknownFormat`, so `Plate.LookupDigraph` has no modelled caller.
- Plate.NormalizePpu: not idempotent on three-letter plates. The padded form "BBC012" is not a recognized layout, so normalizing it again fails (`Plate.NormalizeRejectsPaddedForm`). The rules that would accept it live in rust/verify/src/utils.rs, which is not part of this model.
- Rut.ParseDigits: refusing a value beyond u32 with `InvalidDigits` is an inference. The Python bindings `calculate_verifier` and `validate_rut` take a `u32` (rust/verify/src/lib.rs:192,201), and rust/rs_verify/src/errors.rs only declares the variants.
- Rut.ValidateRutText: the order of the checks is an inference: empty digits, then empty verifier, then malformed digits, then malformed verifier. So `ValidateRutText("12a", "")` is `EmptyVerifier`. Neither rust/verify/src/lib.rs nor rust/rs_verify/src/errors.rs fixes the order; the parsing code in rust/verify/src/utils.rs is not part of this model.
- Plate.PpuToNumeric: modelled only on canonical (normalized) plates, which is how `Ppu::new` calls it; the public `ppu_to_numeric` on arbitrary strings depends on utils.rs.
- Generator.Generate: the order of the argument checks and the `InvalidInput` case for a negative `min` are inferred from the error docstrings, because utils.rs is not part of this model.
- Rut.ParseVerifier: reading a lower-case 'k' as 'K' is an inference. The error text names only '0'..'9' and 'K' (rust/rs_verify/src/errors.rs:37), and the parsing code is not part of this model.
- Plate.LookupLetter: case-insensitive lookup and the `InvalidLength(1, length, input)` payload are inferences from the error declarations; the lookup code in rust/verify/src/utils.rs is not part of this model.
- Plate.LookupDigraph: case-insensitive lookup and the `InvalidLength(2, length, input)` payload are inferences from the error declarations, for the same reason.
- Clients.Repr: built on the intended mask. The code as written reads the key through the panicking getter (rust/rs_cmf/src/lib.rs:94), so on keys like "ñññ" it panics; that behaviour is `Clients.ReprAsWritten`.
- Exceptions.FromVerifierError: the Rust match has no arms for `EmptyDigits` and `InvalidDigits`. They are mapped to the same-named classes that the Python layer imports (src/cl_forge/core/impl/rs_exceptions.py:15-17).

## Findings

| source | as written | input that shows it | evidently intended | confidence | as-written member | corrected member |
|---|---|---|---|---|---|---|
| rust/rs_cmf/src/lib.rs:83-84 | the `api_key` getter compares the key's UTF-8 byte length with 5 and slices its first 5 bytes | the key "ñññ" is 6 bytes long, and byte 5 falls inside its third character, so the slice panics | show the first five characters followed by "..." | medium, not executed | Clients.MaskAsWritten, Clients.ReprAsWritten (counterexamples Clients.MaskAsWrittenPanics, Clients.ReprAsWrittenPanics) | Clients.Mask, Clients.Repr (with Clients.MaskAgreesOnAscii, Clients.MaskHidesTail, Clients.ReprAsWrittenAgreesOnAscii) |

=== FILE: client_errors.dfy ===
/** Error kinds of the HTTP clients' input handling. The network failures
    (`HttpError`, `ConnectError`, `BadStatus`) belong to the request itself and
    are not part of this model. */
module ClientErrors {

  /** The base client's errors. */
  datatype ClientError =
    | EmptyApiKey
    | EmptyPath
    | InvalidPath
    | UnsupportedFormat(expected: string, actual: string)

  /** The financial-regulator client's errors; base errors are wrapped. */
  datatype CmfClientError =
    | CmfEmptyPath
    | CmfEmptyApiKey
    | CmfInvalidPath
    | BaseError(base: ClientError)
}

=== FILE: clients.dfy ===
/** The input handling of the HTTP clients: `BaseClient` of the base crate
    and the financial-regulator client `CmfClient`. Only the part before the
    network is modelled: key validation, key masking, path checks and the
    request (URL and query list) a client hands to its transport. */
module Clients {
  import opened Results
  import opened Text
  import opened ClientErrors
  import opened ResponseFormats

  /** A GET as the client hands it to the transport. */
  datatype Request = Request(url: string, query: seq<(string, string)>)

  /** A stored API key: trimmed, and not empty. */
  predicate IsStoredKey(k: string) {
    k != [] && Trim(k) == k
  }

  // ---------------------------------------------------------------------
  // Paths, shared by both clients.

  /** Why a path is refused. */
  datatype PathProblem = NoPath | NoLeadingSlash

  /** The path rule of both `get` methods: the path is trimmed, must not be
      empty, and must start with '/'; emptiness is checked first. */
  function CheckPath(path: string): (r: Result<string, PathProblem>)
    ensures r == Err(NoPath) <==> AllWhitespace(path)
    ensures r == Err(NoLeadingSlash) <==> !AllWhitespace(path) && Trim(path)[0] != '/'
    ensures r.Ok? ==> r.value == Trim(path) && r.value[0] == '/'
  {
    TrimEmptyIffBlank(path);
    var p := Trim(path);
    if p == [] then Err(NoPath)
    else if p[0] != '/' then Err(NoLeadingSlash)
    else Ok(p)
  }

  /** Whitespace around a path never changes the verdict. */
  lemma CheckPathIgnoresPadding(p: string, path: string, q: string)
    requires AllWhitespace(p) && AllWhitespace(q)
    ensures CheckPath(p + path + q) == CheckPath(path)
  {
    TrimIgnoresPadding(p, path, q);
    TrimEmptyIffBlank(p + path + q);
    TrimEmptyIffBlank(path);
  }

  /** An accepted path is accepted again unchanged. */
  lemma CheckPathIdempotent(path: string)
    requires CheckPath(path).Ok?
    ensures CheckPath(CheckPath(path).value) == CheckPath(path)
  {
    TrimIdempotent(path);
    TrimEmptyIffBlank(Trim(path));
  }

  // ---------------------------------------------------------------------
  // The base client.

  /** A constructed base client; its HTTP session is not modelled. */
  datatype BaseClient = BaseClient(apiKey: string, baseUrl: string)

  /** `BaseClient::new`: the key is trimmed and refused when nothing is
      left; the base URL is kept as given. */
  function NewBaseClient(apiKey: string, baseUrl: string): (r: Result<BaseClient, ClientError>)
    ensures r.Err? <==> AllWhitespace(apiKey)
    ensures r.Err? ==> r.error == EmptyApiKey
    ensures r.Ok? ==> r.value.apiKey == Trim(apiKey) && IsStoredKey(r.value.apiKey)
    ensures r.Ok? ==> r.value.baseUrl == baseUrl
  {
    TrimEmptyIffBlank(apiKey);
    TrimIdempotent(apiKey);
    var key := Trim(apiKey);
    if key == [] then Err(EmptyApiKey) else Ok(BaseClient(key, baseUrl))
  }

  /** Whitespace around the key never changes the client built. */
  lemma NewBaseClientIgnoresPadding(p: string, key: string, q: string, baseUrl: string)
    requires AllWhitespace(p) && AllWhitespace(q)
    ensures NewBaseClient(p + key + q, baseUrl) == NewBaseClient(key, baseUrl)
  {
    TrimIgnoresPadding(p, key, q);
    TrimEmptyIffBlank(p + key + q);
    TrimEmptyIffBlank(key);
  }

  /** Building a client from a stored key and URL gives that client back. */
  lemma NewBaseClientRebuilds(c: BaseClient)
    requires IsStoredKey(c.apiKey)
    ensures NewBaseClient(c.apiKey, c.baseUrl) == Ok(c)
  {
    TrimEmptyIffBlank(c.apiKey);
  }

  /** The pre-network part of `BaseClient::get`: the path checks, then the
      URL (base URL followed by the trimmed path) and the caller's query. */
  function BaseRequest(c: BaseClient, path: string, query: seq<(string, string)>): (r: Result<Request, ClientError>)
    ensures r == Err(EmptyPath) <==> CheckPath(path) == Err(NoPath)
    ensures r == Err(InvalidPath) <==> CheckPath(path) == Err(NoLeadingSlash)
    ensures r.Ok? <==> CheckPath(path).Ok?
    ensures r.Ok? ==> r.value.url == c.baseUrl + Trim(path) && r.value.query == query
    ensures r.Ok? ==> |r.value.url| > |c.baseUrl| && r.value.url[|c.baseUrl|] == '/'
  {
    match CheckPath(path)
    case Err(NoPath) => Err(EmptyPath)
    case Err(NoLeadingSlash) => Err(InvalidPath)
    case Ok(p) => Ok(Request(c.baseUrl + p, query))
  }

  // ---------------------------------------------------------------------
  // The financial-regulator client.

  /** A constructed client. The base URL is the crate's `BASE_URL` constant,
      which is not part of this model; it is a parameter of construction. */
  datatype CmfClient = CmfClient(apiKey: string, baseUrl: string)

  /** `CmfClient::new`: the key is trimmed and refused when nothing is left. */
  function NewCmfClient(apiKey: string, baseUrl: string): (r: Result<CmfClient, CmfClientError>)
    ensures r.Err? <==> AllWhitespace(apiKey)
    ensures r.Err? ==> r.error == CmfEmptyApiKey
    ensures r.Ok? ==> r.value.apiKey == Trim(apiKey) && IsStoredKey(r.value.apiKey)
    ensures r.Ok? ==> r.value.baseUrl == baseUrl
  {
    TrimEmptyIffBlank(apiKey);
    TrimIdempotent(apiKey);
    var key := Trim(apiKey);
    if key == [] then Err(CmfEmptyApiKey) else Ok(CmfClient(key, baseUrl))
  }

  /** Both clients accept and refuse the same keys and store the same key. */
  lemma ClientsAgreeOnKeys(apiKey: string, baseUrl: string)
    ensures NewBaseClient(apiKey, baseUrl).Ok? <==> NewCmfClient(apiKey, baseUrl).Ok?
    ensures NewCmfClient(apiKey, baseUrl).Ok? ==>
              NewCmfClient(apiKey, baseUrl).value.apiKey == NewBaseClient(apiKey, baseUrl).value.apiKey
  {
  }

  /** The number of bytes a character takes in UTF-8. */
  function Utf8Width(c: char): (w: nat)
    ensures 1 <= w <= 4
  {
    if c as int < 0x80 then 1
    else if c as int < 0x800 then 2
    else if c as int < 0x1_0000 then 3
    else 4
  }

  /** `str::len`: the length of s in UTF-8 bytes. */
  function Utf8Len(s: string): (n: nat)
    ensures n >= |s|
  {
    if s == [] then 0 else Utf8Width(s[0]) + Utf8Len(s[1..])
  }

  /** `&s[..n]` on a Rust string: the leading characters of s that fill
      exactly n bytes, or None when byte n falls inside a character, where
      Rust panics. */
  function BytePrefix(s: string, n: nat): (r: Option<string>)
    ensures r.Some? ==> |r.value| <= |s| && r.value == s[..|r.value|] && Utf8Len(r.value) == n
    ensures r.None? ==> forall k :: 0 <= k <= |s| ==> Utf8Len(s[..k]) != n
  {
    if n == 0 then Some([])
    else if s == [] || Utf8Width(s[0]) > n then
      NoBoundary(s, n);
      None
    else
      match BytePrefix(s[1..], n - Utf8Width(s[0]))
      case None =>
        NoBoundary(s, n);
        None
      case Some(p) => Some([s[0]] + p)
  }

  /** A prefix of at least one character takes the first character's bytes
      plus those of the rest of the prefix. */
  lemma Utf8LenOfPrefix(s: string, k: nat)
    requires 1 <= k <= |s|
    ensures Utf8Len(s[..k]) == Utf8Width(s[0]) + Utf8Len(s[1..][..k - 1])
  {
    assert s[..k][1..] == s[1..][..k - 1];
  }

  /** No character prefix of s fills exactly n bytes when the first character
      alone overflows n, or when no prefix of the rest fills what is left. */
  lemma NoBoundary(s: string, n: nat)
    requires n > 0
    requires s == [] || Utf8Width(s[0]) > n ||
             forall k :: 0 <= k <= |s| - 1 ==> Utf8Len(s[1..][..k]) != n - Utf8Width(s[0])
    ensures forall k :: 0 <= k <= |s| ==> Utf8Len(s[..k]) != n
  {
    forall k | 0 <= k <= |s|
      ensures Utf8Len(s[..k]) != n
    {
      if k > 0 {
        Utf8LenOfPrefix(s, k);
      }
    }
  }

  /** The `api_key` getter as written: compares the byte length with 5 and
      slices the first 5 bytes. None stands for the panic, which happens
      exactly when the key is longer than 5 bytes and byte 5 falls inside a
      character. Otherwise the result is a character prefix of the key
      followed by "...": the whole key when it has at most 5 bytes, else the
      prefix of exactly 5 bytes. */
  function MaskAsWritten(key: string): (r: Option<string>)
    ensures r.None? <==> Utf8Len(key) > 5 && BytePrefix(key, 5).None?
    ensures r.None? <==> Utf8Len(key) > 5 && forall k :: 0 <= k <= |key| ==> Utf8Len(key[..k]) != 5
    ensures Utf8Len(key) <= 5 ==> r == Some(key + "...")
    ensures r.Some? ==> 3 <= |r.value| <= |key| + 3 && r.value[|r.value| - 3..] == "..."
                        && r.value[..|r.value| - 3] == key[..|r.value| - 3]
    ensures r.Some? && Utf8Len(key) > 5 ==> Utf8Len(r.value[..|r.value| - 3]) == 5
  {
    if Utf8Len(key) > 5 then
      match BytePrefix(key, 5)
      case None => None
      case Some(p) =>
        assert Utf8Len(key[..|p|]) == 5;
        Some(p + "...")
    else Some(key + "...")
  }

  /** The key as the `api_key` getter shows it: at most its first five
      characters, then "...". */
  function Mask(key: string): (r: string)
    ensures |r| == (if |key| > 5 then 5 else |key|) + 3
    ensures r[..|r| - 3] == key[..|r| - 3] && r[|r| - 3..] == "..."
  {
    var shown := if |key| > 5 then key[..5] else key;
    shown + "..."
  }

  /** The mask never depends on anything past the fifth character. */
  lemma MaskHidesTail(k1: string, k2: string)
    requires |k1| > 5 && |k2| > 5 && k1[..5] == k2[..5]
    ensures Mask(k1) == Mask(k2)
  {
  }

  /** On ASCII keys bytes and characters coincide, so the getter as written
      computes the mask. */
  lemma MaskAgreesOnAscii(key: string)
    requires AllAscii(key)
    ensures MaskAsWritten(key) == Some(Mask(key))
  {
    AsciiUtf8Len(key);
    if |key| > 5 {
      AsciiBytePrefix(key, 5);
    }
  }

  lemma {:induction false} AsciiUtf8Len(s: string)
    requires AllAscii(s)
    ensures Utf8Len(s) == |s|
  {
    if s != [] {
      AsciiUtf8Len(s[1..]);
    }
  }

  lemma {:induction false} AsciiBytePrefix(s: string, n: nat)
    requires AllAscii(s) && n <= |s|
    ensures BytePrefix(s, n) == Some(s[..n])
  {
    if n > 0 {
      AsciiBytePrefix(s[1..], n - 1);
      assert s[..n] == [s[0]] + s[1..][..n - 1];
    }
  }

  /** A key of three two-byte characters is six bytes long, and byte 5 falls
      inside the third character: the getter as written panics, while the
      intended mask shows the whole key. */
  lemma MaskAsWrittenPanics()
    ensures MaskAsWritten("\U{00F1}\U{00F1}\U{00F1}") == None
    ensures Mask("\U{00F1}\U{00F1}\U{00F1}") == "\U{00F1}\U{00F1}\U{00F1}..."
  {
    var n := '\U{00F1}';
    assert Utf8Width(n) == 2;
    var s := [n, n, n];
    assert s[1..] == [n, n] && s[1..][1..] == [n] && [n][1..] == [];
    assert BytePrefix([n], 1) == None;
    assert Utf8Len([n]) == 2;
    assert Utf8Len([n, n]) == 4;
    assert Utf8Len(s) == 6;
  }

  /** `CmfClient(api_key="test_key")` shows its key as "test_...". */
  lemma MaskTestKey()
    ensures Mask("test_key") == "test_..."
  {
    assert "test_key"[..5] == "test_";
  }

  /** `CmfClient.__repr__`: the masked key and the base URL, built on the
      intended mask. Whatever the key, the text holds at most eight
      characters besides the fixed frame and the URL, and it starts with
      the key's first characters. */
  function Repr(c: CmfClient): (r: string)
    ensures |c.baseUrl| + 34 <= |r| <= |c.baseUrl| + 42
    ensures r[..19] == "CmfClient(api_key='"
    ensures r[|r| - |c.baseUrl| - 2..] == c.baseUrl + "')"
    ensures var shown := if |c.apiKey| > 5 then 5 else |c.apiKey|;
            |r| > 19 + shown && r[19..19 + shown] == c.apiKey[..shown]
  {
    var m := Mask(c.apiKey);
    var r := "CmfClient(api_key='" + m + "', base_url='" + c.baseUrl + "')";
    assert r[19..19 + |m|] == m;
    assert r[|r| - |c.baseUrl| - 2..] == c.baseUrl + "')";
    r
  }

  /** `CmfClient.__repr__` as written: it goes through the `api_key` getter,
      so it panics (None) on exactly the keys where the getter does, and
      otherwise frames the getter's text the same way. */
  function ReprAsWritten(c: CmfClient): (r: Option<string>)
    ensures r.None? <==> MaskAsWritten(c.apiKey).None?
    ensures r.Some? ==> |r.value| >= |c.baseUrl| + 34
                        && r.value[..19] == "CmfClient(api_key='"
                        && r.value[|r.value| - |c.baseUrl| - 2..] == c.baseUrl + "')"
    ensures r.Some? ==> var m := MaskAsWritten(c.apiKey).value;
                        |r.value| == |m| + |c.baseUrl| + 34 && r.value[19..19 + |m|] == m
  {
    match MaskAsWritten(c.apiKey)
    case None => None
    case Some(m) =>
      var r := "CmfClient(api_key='" + m + "', base_url='" + c.baseUrl + "')";
      assert r[19..19 + |m|] == m;
      assert r[|r| - |c.baseUrl| - 2..] == c.baseUrl + "')";
      Some(r)
  }

  /** On ASCII keys the representation as written is the intended one; on
      "ñññ" it panics. */
  lemma ReprAsWrittenAgreesOnAscii(c: CmfClient)
    requires AllAscii(c.apiKey)
    ensures ReprAsWritten(c) == Some(Repr(c))
  {
    MaskAgreesOnAscii(c.apiKey);
  }

  lemma ReprAsWrittenPanics(baseUrl: string)
    ensures ReprAsWritten(CmfClient("\U{00F1}\U{00F1}\U{00F1}", baseUrl)) == None
  {
    MaskAsWrittenPanics();
  }

  /** The representation never shows the key past its fifth character. */
  lemma ReprHidesKeyTail(c1: CmfClient, c2: CmfClient)
    requires c1.baseUrl == c2.baseUrl
    requires |c1.apiKey| > 5 && |c2.apiKey| > 5 && c1.apiKey[..5] == c2.apiKey[..5]
    ensures Repr(c1) == Repr(c2)
  {
    MaskHidesTail(c1.apiKey, c2.apiKey);
  }

  /** The pre-network part of `CmfClient::get`: the path checks, then the
      format (a missing one means JSON), then the URL and the query list:
      the key, the format's wire name, then the caller's parameters in their
      order. */
  function CmfRequest(c: CmfClient, path: string, format: Option<string>, params: seq<(string, string)>)
    : (r: Result<Request, CmfClientError>)
    ensures r == Err(CmfEmptyPath) <==> CheckPath(path) == Err(NoPath)
    ensures r == Err(CmfInvalidPath) <==> CheckPath(path) == Err(NoLeadingSlash)
    ensures (r.Err? && r.error.BaseError?) <==> CheckPath(path).Ok? && ParseOptionalCmf(format).Err?
    ensures r.Err? && r.error.BaseError? ==> r.error.base == ParseOptionalCmf(format).error
    ensures r.Ok? <==> CheckPath(path).Ok? && ParseOptionalCmf(format).Ok?
    ensures r.Ok? ==> r.value.url == c.baseUrl + Trim(path)
    ensures r.Ok? ==> |r.value.query| == |params| + 2
                      && r.value.query[0] == ("apikey", c.apiKey)
                      && r.value.query[1] == ("formato", ParseOptionalCmf(format).value.AsStr())
                      && r.value.query[2..] == params
  {
    match CheckPath(path)
    case Err(NoPath) => Err(CmfEmptyPath)
    case Err(NoLeadingSlash) => Err(CmfInvalidPath)
    case Ok(p) =>
      match ParseOptionalCmf(format)
      case Err(e) => Err(BaseError(e))
      case Ok(f) => Ok(Request(c.baseUrl + p, [("apikey", c.apiKey), ("formato", f.AsStr())] + params))
  }

  /** Without a format the request asks for JSON. */
  lemma CmfRequestDefaultsToJson(c: CmfClient, path: string, params: seq<(string, string)>)
    requires CheckPath(path).Ok?
    ensures CmfRequest(c, path, None, params).Ok?
    ensures CmfRequest(c, path, None, params).value.query[1] == ("formato", "json")
  {
  }

  /** A bad path is reported whatever the format: path errors come before
      format errors. */
  lemma PathErrorsComeFirst(c: CmfClient, path: string, f1: Option<string>, f2: Option<string>,
                            params: seq<(string, string)>)
    requires CheckPath(path).Err?
    ensures CmfRequest(c, path, f1, params) == CmfRequest(c, path, f2, params)
  {
  }

  /** Both clients build the same URL for the same base URL and path. */
  lemma ClientsAgreeOnUrls(b: BaseClient, c: CmfClient, path: string, query: seq<(string, string)>)
    requires b.baseUrl == c.baseUrl
    ensures BaseRequest(b, path, query).Ok? ==>
              CmfRequest(c, path, None, query).Ok? &&
              CmfRequest(c, path, None, query).value.url == BaseRequest(b, path, query).value.url
  {
  }
}

=== FILE: errors.dfy ===
/** The structured error kinds of the identifier engine, one datatype per
    Rust enum, with the payload each variant carries. */
module Errors {

  /** Failures of plate detection, normalization and letter/digraph lookup. */
  datatype PpuError =
    | UnknownFormat(ppu: string)
    | InvalidLength(expected: nat, actual: nat, chars: string)
    | UnknownLetter(letter: string)
    | EmptyLetter
    | UnknownDigraph(letters: string)
    | EmptyDigraph
  {
    /** The variant's name as declared. */
    function Name(): string {
      match this
      case UnknownFormat(_) => "UnknownFormat"
      case InvalidLength(_, _, _) => "InvalidLength"
      case UnknownLetter(_) => "UnknownLetter"
      case EmptyLetter => "EmptyLetter"
      case UnknownDigraph(_) => "UnknownDigraph"
      case EmptyDigraph => "EmptyDigraph"
    }
  }

  /** Failures of check-character computation and RUT validation. */
  datatype VerifierError =
    | EmptyDigits
    | EmptyVerifier
    | InvalidDigits(input: string)
    | InvalidVerifier(verifier: string)
    | UnexpectedComputation
  {
    /** The variant's name as declared. */
    function Name(): string {
      match this
      case EmptyDigits => "EmptyDigits"
      case EmptyVerifier => "EmptyVerifier"
      case InvalidDigits(_) => "InvalidDigits"
      case InvalidVerifier(_) => "InvalidVerifier"
      case UnexpectedComputation => "UnexpectedComputation"
    }
  }

  /** Failures of the RUT generator. */
  datatype GenerateError =
    | InvalidRange(min: int, max: int)
    | InvalidInput(reason: string)
    | InsufficientRange(requested: int, available: int)
    | UnexpectedGeneration(detail: string)
  {
    /** The variant's name as declared. */
    function Name(): string {
      match this
      case InvalidRange(_, _) => "InvalidRange"
      case InvalidInput(_) => "InvalidInput"
      case InsufficientRange(_, _) => "InsufficientRange"
      case UnexpectedGeneration(_) => "UnexpectedGeneration"
    }
  }
}

=== FILE: exceptions.dfy ===
/** The Python exception classes of the bindings and the conversion of every
    structured error into one of them (the `From<…> for PyErr` impls). */
module Exceptions {
  import opened Results
  import Errors
  import Rut
  import ClientErrors

  /** The exception classes the bindings define. */
  datatype ExceptionClass =
    | PpuException
    | UnknownFormat
    | InvalidLength
    | UnknownLetter
    | EmptyLetter
    | UnknownDigraph
    | EmptyDigraph
    | VerifierException
    | EmptyDigits
    | EmptyVerifier
    | InvalidDigits
    | InvalidVerifier
    | UnexpectedComputation
    | GenerateException
    | InvalidRange
    | InvalidInput
    | InsufficientRange
    | UnexpectedGeneration
    | CmfClientException
    | EmptyPath
    | BadStatus
    | EmptyApiKey
    | InvalidPath
    | ConnectError
  {
    /** The name Python sees. */
    function Name(): string {
      match this
      case PpuException => "PpuException"
      case UnknownFormat => "UnknownFormat"
      case InvalidLength => "InvalidLength"
      case UnknownLetter => "UnknownLetter"
      case EmptyLetter => "EmptyLetter"
      case UnknownDigraph => "UnknownDigraph"
      case EmptyDigraph => "EmptyDigraph"
      case VerifierException => "VerifierException"
      case EmptyDigits => "EmptyDigits"
      case EmptyVerifier => "EmptyVerifier"
      case InvalidDigits => "InvalidDigits"
      case InvalidVerifier => "InvalidVerifier"
      case UnexpectedComputation => "UnexpectedComputation"
      case GenerateException => "GenerateException"
      case InvalidRange => "InvalidRange"
      case InvalidInput => "InvalidInput"
      case InsufficientRange => "InsufficientRange"
      case UnexpectedGeneration => "UnexpectedGeneration"
      case CmfClientException => "CmfClientException"
      case EmptyPath => "EmptyPath"
      case BadStatus => "BadStatus"
      case EmptyApiKey => "EmptyApiKey"
      case InvalidPath => "InvalidPath"
      case ConnectError => "ConnectError"
    }

    /** The class it derives from; the four family bases derive from
        Python's `Exception` and have no parent here. */
    function Parent(): Option<ExceptionClass> {
      match this
      case PpuException => None
      case VerifierException => None
      case GenerateException => None
      case CmfClientException => None
      case UnknownFormat => Some(PpuException)
      case InvalidLength => Some(PpuException)
      case UnknownLetter => Some(PpuException)
      case EmptyLetter => Some(PpuException)
      case UnknownDigraph => Some(PpuException)
      case EmptyDigraph => Some(PpuException)
      case EmptyDigits => Some(VerifierException)
      case EmptyVerifier => Some(VerifierException)
      case InvalidDigits => Some(VerifierException)
      case InvalidVerifier => Some(VerifierException)
      case UnexpectedComputation => Some(VerifierException)
      case InvalidRange => Some(GenerateException)
      case InvalidInput => Some(GenerateException)
      case InsufficientRange => Some(GenerateException)
      case UnexpectedGeneration => Some(GenerateException)
      case EmptyPath => Some(CmfClientException)
      case BadStatus => Some(CmfClientException)
      case EmptyApiKey => Some(CmfClientException)
      case InvalidPath => Some(CmfClientException)
      case ConnectError => Some(CmfClientException)
    }
  }

  /** A raised exception: its class and its message, the error's `Display`
      text. */
  datatype PyErr = PyErr(cls: ExceptionClass, message: string)

  /** `Display` of a plate error (the `#[error]` strings of the error enum). */
  function PpuMessage(e: Errors.PpuError): (m: string)
    ensures |m| > 0 && m[|m| - 1] == '.'
    ensures e.UnknownFormat? ==> |m| >= |e.ppu| + 2 && m[|m| - 2 - |e.ppu|..|m| - 2] == e.ppu
    ensures e.UnknownLetter? ==> |m| >= |e.letter| + 2 && m[|m| - 2 - |e.letter|..|m| - 2] == e.letter
    ensures e.UnknownDigraph? ==> |m| >= |e.letters| + 2 && m[|m| - 2 - |e.letters|..|m| - 2] == e.letters
    ensures e.InvalidLength? ==> |m| >= |e.chars| + 3 && m[|m| - 3 - |e.chars|..|m| - 3] == e.chars
  {
    match e
    case UnknownFormat(ppu) => "PPU does not match any known format: '" + ppu + "'."
    case InvalidLength(expected, actual, chars) =>
      "Expected length '" + Rut.DecimalString(expected) + "', but got '"
      + Rut.DecimalString(actual) + "' ('" + chars + "')."
    case UnknownLetter(letter) => "Unknown letter: '" + letter + "'."
    case EmptyLetter => "Letter cannot be empty."
    case UnknownDigraph(letters) => "Unknown digraph: '" + letters + "'."
    case EmptyDigraph => "Digraph cannot be empty."
  }

  /** `Display` of a verifier error. */
  function VerifierMessage(e: Errors.VerifierError): (m: string)
    ensures |m| > 0 && m[|m| - 1] == '.'
    ensures e.InvalidDigits? ==> |m| >= |e.input| + 12 && m[|m| - 12 - |e.input|..|m| - 12] == e.input
    ensures e.InvalidVerifier? ==> |m| >= |e.verifier| + 12 && m[|m| - 12 - |e.verifier|..|m| - 12] == e.verifier
  {
    match e
    case EmptyDigits => "Digits cannot be empty."
    case EmptyVerifier => "Verifier cannot be empty."
    case InvalidDigits(input) => "Input must be only digits, but '" + input + "' was given."
    case InvalidVerifier(verifier) =>
      "Verifier must be single '0'..'9' or 'K', but '" + verifier + "' was given."
    case UnexpectedComputation => "Unexpected verifier computation."
  }

  /** `From<PpuError> for PyErr`: each variant raises the class of the same
      name, a subclass of `PpuException`, with the error's text. */
  function FromPpuError(e: Errors.PpuError): (r: PyErr)
    ensures r.cls.Name() == e.Name()
    ensures r.cls.Parent() == Some(PpuException)
    ensures r.message == PpuMessage(e)
  {
    var cls :=
      match e
      case UnknownFormat(_) => UnknownFormat
      case InvalidLength(_, _, _) => InvalidLength
      case UnknownLetter(_) => UnknownLetter
      case EmptyLetter => EmptyLetter
      case UnknownDigraph(_) => UnknownDigraph
      case EmptyDigraph => EmptyDigraph;
    PyErr(cls, PpuMessage(e))
  }

  /** `From<VerifierError> for PyErr`: each variant raises the class of the
      same name, a subclass of `VerifierException`. The two front-end
      variants `EmptyDigits` and `InvalidDigits` have no arm in the Rust
      match; they are mapped the same way here. */
  function FromVerifierError(e: Errors.VerifierError): (r: PyErr)
    ensures r.cls.Name() == e.Name()
    ensures r.cls.Parent() == Some(VerifierException)
    ensures r.message == VerifierMessage(e)
  {
    var cls :=
      match e
      case EmptyDigits => EmptyDigits
      case EmptyVerifier => EmptyVerifier
      case InvalidDigits(_) => InvalidDigits
      case InvalidVerifier(_) => InvalidVerifier
      case UnexpectedComputation => UnexpectedComputation;
    PyErr(cls, VerifierMessage(e))
  }

  /** `From<GenerateError> for PyErr`. The generator's `Display` texts are
      not part of this model, so the text is supplied by the caller. */
  function FromGenerateError(e: Errors.GenerateError, display: Errors.GenerateError -> string): (r: PyErr)
    ensures r.cls.Name() == e.Name()
    ensures r.cls.Parent() == Some(GenerateException)
    ensures r.message == display(e)
  {
    var cls :=
      match e
      case InvalidRange(_, _) => InvalidRange
      case InvalidInput(_) => InvalidInput
      case InsufficientRange(_, _) => InsufficientRange
      case UnexpectedGeneration(_) => UnexpectedGeneration;
    PyErr(cls, display(e))
  }

  /** What converting a client error does: raise one of the client's own
      classes, or hand a wrapped base error to the base crate's conversion. */
  datatype CmfRaised = Raised(cls: ExceptionClass) | Delegated(base: ClientErrors.ClientError)

  /** `From<CmfClientError> for PyErr`, restricted to the input-validation
      variants: each raises the same-named subclass of `CmfClientException`;
      a wrapped base error is passed on unchanged. */
  function FromCmfClientError(e: ClientErrors.CmfClientError): (r: CmfRaised)
    ensures e.BaseError? <==> r.Delegated?
    ensures e.BaseError? ==> r.base == e.base
    ensures r.Raised? ==> r.cls.Parent() == Some(CmfClientException)
    ensures e.CmfEmptyPath? ==> r.Raised? && r.cls.Name() == "EmptyPath"
    ensures e.CmfEmptyApiKey? ==> r.Raised? && r.cls.Name() == "EmptyApiKey"
    ensures e.CmfInvalidPath? ==> r.Raised? && r.cls.Name() == "InvalidPath"
  {
    match e
    case CmfEmptyPath => Raised(EmptyPath)
    case CmfEmptyApiKey => Raised(EmptyApiKey)
    case CmfInvalidPath => Raised(InvalidPath)
    case BaseError(b) => Delegated(b)
  }

  /** Every family's conversion lands in its own family: no two error enums
      share an exception class. */
  lemma FamiliesAreDisjoint(p: Errors.PpuError, v: Errors.VerifierError, g: Errors.GenerateError,
                            display: Errors.GenerateError -> string)
    ensures FromPpuError(p).cls != FromVerifierError(v).cls
    ensures FromPpuError(p).cls != FromGenerateError(g, display).cls
    ensures FromVerifierError(v).cls != FromGenerateError(g, display).cls
  {
    var a, b, c := FromPpuError(p).cls, FromVerifierError(v).cls, FromGenerateError(g, display).cls;
    assert a.Parent() != b.Parent() && a.Parent() != c.Parent() && b.Parent() != c.Parent();
  }
}

=== FILE: formats.dfy ===
/** The response format a client asks for, `ResponseFormat` in the base crate
    and its copy `CmfResponseFormat`: the same variants, strings and parser;
    the two differ only in what a missing format means. */
module ResponseFormats {
  import opened Results
  import opened Text
  import opened ClientErrors

  datatype ResponseFormat = Json | Xml {

    /** The wire name of the format. It is already in the form the parser
        compares against: lower-case and with nothing to trim. */
    function AsStr(): (r: string)
      ensures r != [] && Lower(r) == r && Trim(r) == r
    {
      var r := match this
        case Json => "json"
        case Xml => "xml";
      TrimOfTrimmed(r);
      r
    }
  }

  /** Every variant, in declaration order. */
  const ALL: seq<ResponseFormat> := [Json, Xml]

  /** `ResponseFormat::default()`: the first variant, JSON. */
  function Default(): (f: ResponseFormat)
    ensures f == ALL[0] && f.AsStr() == "json"
  {
    Json
  }

  function Quote(f: ResponseFormat): string {
    "'" + f.AsStr() + "'"
  }

  /** The quoted names of fs, separated by ", ". */
  function JoinQuoted(fs: seq<ResponseFormat>): string {
    if fs == [] then ""
    else if |fs| == 1 then Quote(fs[0])
    else Quote(fs[0]) + ", " + JoinQuoted(fs[1..])
  }

  /** `values()`: the quoted names of all variants, in `ALL` order. */
  function Values(): (v: string)
    ensures v == "'json', 'xml'"
  {
    assert ALL[1..] == [Xml];
    JoinQuoted(ALL)
  }

  /** `ALL` lists every variant exactly once, and no two variants share a
      wire name. */
  lemma AllListsEveryVariantOnce()
    ensures forall f: ResponseFormat :: f in ALL
    ensures |ALL| == 2 && ALL[0] != ALL[1]
    ensures forall f: ResponseFormat, g: ResponseFormat :: f.AsStr() == g.AsStr() ==> f == g
  {
    forall f: ResponseFormat
      ensures f in ALL
    {
      assert f == Json || f == Xml;
    }
  }

  /** `try_from(&str)`: lower-cases, trims, then matches a wire name; any
      other input is `UnsupportedFormat` carrying the expected list and the
      input exactly as given. */
  function ParseFormat(s: string): (r: Result<ResponseFormat, ClientError>)
    ensures r.Ok? ==> r.value.AsStr() == Trim(Lower(s))
    ensures r.Err? ==> (forall f: ResponseFormat :: f.AsStr() != Trim(Lower(s)))
    ensures r.Err? ==> r.error == UnsupportedFormat(Values(), s)
  {
    var t := Trim(Lower(s));
    if t == "json" then Ok(Json)
    else if t == "xml" then Ok(Xml)
    else Err(UnsupportedFormat(Values(), s))
  }

  /** Round trip: every wire name parses back to its variant. */
  lemma ParseFormatRoundTrip(f: ResponseFormat)
    ensures ParseFormat(f.AsStr()) == Ok(f)
  {
  }

  /** Parsing ignores letter case and surrounding whitespace: any casing of a
      wire name, padded by whitespace, parses to its variant. */
  lemma ParseFormatIgnoresCaseAndPadding(f: ResponseFormat, p: string, w: string, q: string)
    requires AllWhitespace(p) && AllWhitespace(q) && Lower(w) == f.AsStr()
    ensures ParseFormat(p + w + q) == Ok(f)
  {
    LowerOfPadded(p, w, q);
    TrimIgnoresPadding(p, f.AsStr(), q);
    ParseFormatRoundTrip(f);
  }

  lemma LowerOfPadded(p: string, w: string, q: string)
    requires AllWhitespace(p) && AllWhitespace(q)
    ensures Lower(p + w + q) == p + Lower(w) + q
  {
    LowerConcat(p + w, q);
    LowerConcat(p, w);
    LowerKeepsWhitespace(p);
    LowerKeepsWhitespace(q);
  }

  /** `ResponseFormat::try_from(Option<&str>)` in the base crate: a missing
      format is an error whose actual value reads "None". */
  function ParseOptionalBase(opt: Option<string>): (r: Result<ResponseFormat, ClientError>)
    ensures opt.Some? ==> r == ParseFormat(opt.value)
    ensures opt.None? ==> r == Err(UnsupportedFormat(Values(), "None"))
  {
    match opt
    case Some(s) => ParseFormat(s)
    case None => Err(UnsupportedFormat(Values(), "None"))
  }

  /** `CmfResponseFormat::try_from(Option<&str>)`: a missing format means the
      default, JSON. */
  function ParseOptionalCmf(opt: Option<string>): (r: Result<ResponseFormat, ClientError>)
    ensures opt.Some? ==> r == ParseFormat(opt.value)
    ensures opt.None? ==> r == Ok(Json)
  {
    match opt
    case Some(s) => ParseFormat(s)
    case None => Ok(Default())
  }

  /** The two optional parsers agree on every given string and disagree only
      on a missing one. */
  lemma OptionalParsersDifferOnlyOnNone(opt: Option<string>)
    ensures ParseOptionalBase(opt) == ParseOptionalCmf(opt) <==> opt.Some?
  {
  }
}

=== FILE: generator.dfy ===
/** The RUT generator: n distinct correlatives drawn without replacement from
    [min, max], each paired with its check character. The pseudo-random
    stream is a parameter: `draw(i)` is the i-th number the seeded generator
    yields, so equal streams (equal seeds) give equal results. */
module Generator {
  import opened Results
  import opened Errors
  import Rut

  /** Rust's `i32`. */
  type I32 = x: int | -0x8000_0000 <= x < 0x8000_0000

  /** One generated RUT: its numeric body and its check character. */
  datatype GeneratedPair = GeneratedPair(correlative: int, verifier: char)

  /** The integers min..max in increasing order. */
  function Range(min: int, max: int): (r: seq<int>)
    ensures |r| == if min <= max then max - min + 1 else 0
    ensures forall i :: 0 <= i < |r| ==> r[i] == min + i
    decreases max - min
  {
    if min > max then [] else [min] + Range(min + 1, max)
  }

  predicate Distinct(s: seq<int>) {
    forall i, j :: 0 <= i < j < |s| ==> s[i] != s[j]
  }

  /** Membership in a range is exactly the bounds check. */
  lemma RangeMembership(min: int, max: int, x: int)
    ensures x in Range(min, max) <==> min <= x <= max
  {
    if min <= x <= max {
      assert Range(min, max)[x - min] == x;
    }
  }

  /** The pool left after removing the element at index j. */
  function RemoveAt(pool: seq<int>, j: nat): (rest: seq<int>)
    requires j < |pool|
    ensures |rest| == |pool| - 1
  {
    pool[..j] + pool[j + 1..]
  }

  /** Removing one element of a pool without duplicates leaves a pool
      without duplicates that no longer holds it and holds nothing new. */
  lemma RemoveAtFacts(pool: seq<int>, j: nat)
    requires j < |pool| && Distinct(pool)
    ensures Distinct(RemoveAt(pool, j))
    ensures pool[j] !in RemoveAt(pool, j)
    ensures forall x :: x in RemoveAt(pool, j) ==> x in pool
    ensures multiset(pool) == multiset(RemoveAt(pool, j)) + multiset{pool[j]}
  {
    var rest := RemoveAt(pool, j);
    assert pool == pool[..j] + [pool[j]] + pool[j + 1..];
    forall a | 0 <= a < |rest|
      ensures rest[a] == pool[if a < j then a else a + 1]
    {
    }
    forall a, b | 0 <= a < b < |rest|
      ensures rest[a] != rest[b]
    {
    }
    forall x | x in rest
      ensures x in pool && x != pool[j]
    {
      var a :| 0 <= a < |rest| && rest[a] == x;
    }
  }

  /** Takes k values without replacement from pool: each step removes the
      element at index `draw(step) mod |pool|`. */
  function Sample(pool: seq<int>, k: nat, draw: nat -> nat, step: nat): (r: seq<int>)
    requires k <= |pool| && Distinct(pool)
    ensures |r| == k && Distinct(r)
    ensures forall x :: x in r ==> x in pool
    ensures k == |pool| ==> multiset(r) == multiset(pool)
    decreases k
  {
    if k == 0 then []
    else
      var j := draw(step) % |pool|;
      var rest := RemoveAt(pool, j);
      RemoveAtFacts(pool, j);
      var tail := Sample(rest, k - 1, draw, step + 1);
      assert pool[j] !in tail;
      [pool[j]] + tail
  }

  /** n distinct correlatives from [min, max], each with its own check
      character. */
  predicate IsValidBatch(pairs: seq<GeneratedPair>, n: int, min: int, max: int) {
    && |pairs| == n
    && (forall i :: 0 <= i < |pairs| ==>
          && 0 <= min <= pairs[i].correlative <= max
          && Rut.IsCheckChar(pairs[i].correlative, pairs[i].verifier))
    && (forall i, j :: 0 <= i < j < |pairs| ==> pairs[i].correlative != pairs[j].correlative)
  }

  /** `generate(n, min, max, seed)`. Checks, in order: an inverted range, a
      non-positive count or a negative lower bound, a range smaller than the
      count; then samples and attaches each check character. */
  function Generate(n: I32, min: I32, max: I32, draw: nat -> nat): (r: Result<seq<GeneratedPair>, GenerateError>)
    ensures r == Err(InvalidRange(min, max)) <==> min > max
    ensures r.Err? && r.error.InvalidInput? <==> min <= max && (n <= 0 || min < 0)
    ensures r == Err(InsufficientRange(n, max - min + 1)) <==>
              min <= max && n > 0 && min >= 0 && max - min + 1 < n
    ensures r.Err? ==> !r.error.UnexpectedGeneration?
    ensures r.Ok? <==> 0 <= min <= max && 0 < n <= max - min + 1
    ensures r.Ok? ==> IsValidBatch(r.value, n, min, max)
  {
    if min > max then Err(InvalidRange(min, max))
    else if n <= 0 then Err(InvalidInput("n must be greater than zero"))
    else if min < 0 then Err(InvalidInput("min must not be negative"))
    else if max - min + 1 < n then Err(InsufficientRange(n, max - min + 1))
    else Ok(DrawBatch(n, min, max, draw))
  }

  /** The sampling step of `generate`, once the arguments have been checked. */
  function DrawBatch(n: nat, min: nat, max: int, draw: nat -> nat): (pairs: seq<GeneratedPair>)
    requires min <= max < Rut.U32_LIMIT && n <= max - min + 1
    ensures IsValidBatch(pairs, n, min, max)
  {
    var picks := Sample(Range(min, max), n, draw, 0);
    SampleWithinRange(min, max, picks);
    var pairs := Pairs(picks);
    assert forall i :: 0 <= i < |pairs| ==> pairs[i].correlative == picks[i];
    pairs
  }

  lemma SampleWithinRange(min: int, max: int, picks: seq<int>)
    requires forall x :: x in picks ==> x in Range(min, max)
    ensures forall i :: 0 <= i < |picks| ==> min <= picks[i] <= max
  {
    forall i | 0 <= i < |picks|
      ensures min <= picks[i] <= max
    {
      RangeMembership(min, max, picks[i]);
    }
  }


  /** The correlatives of a batch, in order. */
  function Correlatives(pairs: seq<GeneratedPair>): (r: seq<int>)
    ensures |r| == |pairs| && forall i :: 0 <= i < |r| ==> r[i] == pairs[i].correlative
  {
    seq(|pairs|, i requires 0 <= i < |pairs| => pairs[i].correlative)
  }

  /** Asking for exactly as many RUTs as the range holds returns the whole
      range, each value once, in some order. */
  lemma {:induction false} GenerateExhaustsRange(n: I32, min: I32, max: I32, draw: nat -> nat)
    requires 0 <= min <= max && n == max - min + 1
    ensures Generate(n, min, max, draw).Ok?
    ensures multiset(Correlatives(Generate(n, min, max, draw).value)) == multiset(Range(min, max))
  {
    var pool := Range(min, max);
    var picks := Sample(pool, n, draw, 0);
    var pairs := Generate(n, min, max, draw).value;
    assert pairs == DrawBatch(n, min, max, draw);
    assert Correlatives(pairs) == picks;
  }

  /** Attaches to each correlative its check character. */
  function Pairs(picks: seq<int>): (r: seq<GeneratedPair>)
    requires forall i :: 0 <= i < |picks| ==> 0 <= picks[i] < Rut.U32_LIMIT
    ensures |r| == |picks|
    ensures forall i :: 0 <= i < |r| ==>
              r[i].correlative == picks[i] && Rut.IsCheckChar(picks[i], r[i].verifier)
  {
    seq(|picks|, i requires 0 <= i < |picks| => GeneratedPair(picks[i], Rut.CalculateVerifier(picks[i]).value))
  }
}

=== FILE: plate.dfy ===
/** Vehicle plates ("PPU"): format detection, normalization, conversion to
    the numeric body, and the frozen `Ppu` value object with its check
    character. The letter and digraph code tables are not fixed here: they
    are a parameter, and only the shape rules are modelled. */
module Plate {
  import opened Results
  import opened Errors
  import opened Text
  import Rut

  type CodeDigit = c: char | IsAsciiDigit(c) witness '0'

  /** The alphabet tables: upper-case letter to digit code, and upper-case
      two-letter digraph to its code. */
  datatype Tables = Tables(letters: map<char, CodeDigit>, digraphs: map<string, string>)

  /** Looks up one letter, case-insensitively. Empty input, input longer than
      one character and unmapped input are three distinct errors. */
  function LookupLetter(t: Tables, letter: string): (r: Result<CodeDigit, PpuError>)
    ensures r == Err(EmptyLetter) <==> letter == []
    ensures r == Err(InvalidLength(1, |letter|, letter)) <==> |letter| > 1
    ensures r == Err(UnknownLetter(letter)) <==> |letter| == 1 && UpperChar(letter[0]) !in t.letters
    ensures r.Ok? <==> |letter| == 1 && UpperChar(letter[0]) in t.letters
    ensures r.Ok? ==> r.value == t.letters[UpperChar(letter[0])]
  {
    if letter == [] then Err(EmptyLetter)
    else if |letter| != 1 then Err(InvalidLength(1, |letter|, letter))
    else if UpperChar(letter[0]) !in t.letters then Err(UnknownLetter(letter))
    else Ok(t.letters[UpperChar(letter[0])])
  }

  /** Looks up a two-letter digraph, case-insensitively, with the same three
      kinds of failure as a letter lookup. */
  function LookupDigraph(t: Tables, letters: string): (r: Result<string, PpuError>)
    ensures r == Err(EmptyDigraph) <==> letters == []
    ensures r == Err(InvalidLength(2, |letters|, letters)) <==> letters != [] && |letters| != 2
    ensures r == Err(UnknownDigraph(letters)) <==> |letters| == 2 && Upper(letters) !in t.digraphs
    ensures r.Ok? <==> |letters| == 2 && Upper(letters) in t.digraphs
    ensures r.Ok? ==> r.value == t.digraphs[Upper(letters)]
  {
    if letters == [] then Err(EmptyDigraph)
    else if |letters| != 2 then Err(InvalidLength(2, |letters|, letters))
    else if Upper(letters) !in t.digraphs then Err(UnknownDigraph(letters))
    else Ok(t.digraphs[Upper(letters)])
  }

  /** A letter's lookup does not depend on its case. */
  lemma LookupLetterIgnoresCase(t: Tables, c: char)
    ensures LookupLetter(t, [c]).Ok? <==> LookupLetter(t, [UpperChar(c)]).Ok?
    ensures LookupLetter(t, [c]).Ok? ==> LookupLetter(t, [c]) == LookupLetter(t, [UpperChar(c)])
  {
    assert UpperChar(UpperChar(c)) == UpperChar(c);
  }

  /** A digraph's lookup does not depend on its case. */
  lemma LookupDigraphIgnoresCase(t: Tables, s: string)
    ensures LookupDigraph(t, s).Ok? <==> LookupDigraph(t, Upper(s)).Ok?
    ensures LookupDigraph(t, s).Ok? ==> LookupDigraph(t, s) == LookupDigraph(t, Upper(s))
  {
    UpperIdempotent(s);
  }

  // ---------------------------------------------------------------------
  // Formats.

  /** The recognized plate layouts: three letters and two digits, and four
      letters and two digits. */
  datatype PpuFormat = LLLNN | LLLLNN {
    /** How many letters lead a plate of this layout. */
    function Letters(): nat {
      match this
      case LLLNN => 3
      case LLLLNN => 4
    }

    /** The format tag exposed as `Ppu.format`: one 'L' per leading letter,
        then one 'N' per digit. */
    function AsStr(): (r: string)
      ensures |r| == Letters() + 2
      ensures forall i :: 0 <= i < |r| ==> r[i] == if i < Letters() then 'L' else 'N'
    {
      match this
      case LLLNN => "LLLNN"
      case LLLLNN => "LLLLNN"
    }
  }

  /** s is `letters` ASCII letters followed by `digits` ASCII digits. */
  predicate HasShape(s: string, letters: nat, digits: nat) {
    |s| == letters + digits && AllLetters(s[..letters]) && AllDigits(s[letters..])
  }

  lemma UpperKeepsShape(s: string, letters: nat, digits: nat)
    ensures HasShape(Upper(s), letters, digits) <==> HasShape(s, letters, digits)
  {
    var u := Upper(s);
    if |s| == letters + digits {
      assert forall i :: 0 <= i < letters ==> u[..letters][i] == UpperChar(s[..letters][i]);
      assert forall i :: 0 <= i < digits ==> u[letters..][i] == UpperChar(s[letters..][i]);
    }
  }

  /** `get_ppu_format`: the layout the upper-cased plate matches, or
      `UnknownFormat` carrying the plate as given. */
  function GetPpuFormat(raw: string): (r: Result<PpuFormat, PpuError>)
    ensures r == Ok(LLLLNN) <==> HasShape(raw, 4, 2)
    ensures r == Ok(LLLNN) <==> HasShape(raw, 3, 2)
    ensures r.Err? ==> r.error == UnknownFormat(raw)
    ensures r.Ok? ==> HasShape(raw, r.value.Letters(), 2)
  {
    var u := Upper(raw);
    UpperKeepsShape(raw, 4, 2);
    UpperKeepsShape(raw, 3, 2);
    if HasShape(u, 4, 2) then Ok(LLLLNN)
    else if HasShape(u, 3, 2) then Ok(LLLNN)
    else Err(UnknownFormat(raw))
  }

  /** The canonical six-character form: three upper-case letters, an upper-case
      letter or the padding '0', then two digits. */
  predicate IsCanonical(s: string) {
    && |s| == 6
    && (forall i :: 0 <= i < 3 ==> IsAsciiUpper(s[i]))
    && (IsAsciiUpper(s[3]) || s[3] == '0')
    && AllDigits(s[4..])
  }

  /** `normalize_ppu`: upper-cases the plate and pads a three-letter plate to
      the canonical width by a '0' before its digits. */
  function NormalizePpu(raw: string): (r: Result<string, PpuError>)
    ensures r.Ok? <==> GetPpuFormat(raw).Ok?
    ensures r.Err? ==> r.error == UnknownFormat(raw)
    ensures r.Ok? ==> IsCanonical(r.value)
    ensures r.Ok? && GetPpuFormat(raw).value == LLLLNN ==> r.value == Upper(raw)
    ensures r.Ok? && GetPpuFormat(raw).value == LLLNN ==>
              r.value[3] == '0' && r.value[..3] + r.value[4..] == Upper(raw)
  {
    var format :- GetPpuFormat(raw);
    var u := Upper(raw);
    match format
    case LLLLNN =>
      assert forall i :: 0 <= i < 4 ==> IsAsciiLetter(raw[..4][i]);
      Ok(u)
    case LLLNN =>
      assert forall i :: 0 <= i < 3 ==> IsAsciiLetter(raw[..3][i]);
      assert forall i :: 0 <= i < 2 ==> IsAsciiDigit(raw[3..][i]);
      var n := u[..3] + "0" + u[3..];
      assert n[..3] + n[4..] == u;
      Ok(n)
  }

  /** Whenever normalization succeeds the format is defined, so reading the
      format after normalizing never fails. */
  lemma FormatDefinedWhenNormalized(raw: string)
    requires NormalizePpu(raw).Ok?
    ensures GetPpuFormat(raw).Ok?
  {
  }

  /** The padded form of a three-letter plate is not itself a recognized
      layout: normalizing it again fails with `UnknownFormat`, so the
      normal form of `LLLNN` is not a fixed point of normalization. */
  lemma NormalizeRejectsPaddedForm(raw: string)
    requires HasShape(raw, 3, 2)
    ensures NormalizePpu(raw).Ok?
    ensures var n := NormalizePpu(raw).value;
            NormalizePpu(n) == Err(UnknownFormat(n))
  {
    var n := NormalizePpu(raw).value;
    assert !IsAsciiLetter(n[..4][3]);
  }

  lemma UpperIdempotent(s: string)
    ensures Upper(Upper(s)) == Upper(s)
  {
    assert forall i :: 0 <= i < |s| ==> UpperChar(UpperChar(s[i])) == UpperChar(s[i]);
  }

  /** A four-letter plate normalizes to itself up to case, so normalizing its
      normalized form changes nothing. */
  lemma NormalizeIdempotentOnFourLetters(raw: string)
    requires HasShape(raw, 4, 2)
    ensures NormalizePpu(raw) == Ok(Upper(raw))
    ensures NormalizePpu(Upper(raw)) == NormalizePpu(raw)
  {
    UpperKeepsShape(raw, 4, 2);
    UpperIdempotent(raw);
  }

  // ---------------------------------------------------------------------
  // Numeric conversion.

  /** Replaces every letter by its code and keeps every digit. */
  function Substitute(t: Tables, s: string): (r: Result<string, PpuError>)
    requires forall i :: 0 <= i < |s| ==> IsAsciiUpper(s[i]) || IsAsciiDigit(s[i])
    ensures r.Ok? <==> forall i :: 0 <= i < |s| && IsAsciiUpper(s[i]) ==> s[i] in t.letters
    ensures r.Ok? ==> |r.value| == |s| && AllDigits(r.value)
    ensures r.Ok? ==> forall i :: 0 <= i < |s| ==>
              r.value[i] == (if IsAsciiDigit(s[i]) then s[i] else t.letters[s[i]])
    ensures r.Err? ==> exists i :: 0 <= i < |s| && IsAsciiUpper(s[i]) && s[i] !in t.letters
                                  && r.error == UnknownLetter([s[i]])
  {
    if s == [] then Ok([])
    else
      var head :- if IsAsciiDigit(s[0]) then Ok(s[0]) else LookupLetter(t, [s[0]]);
      var rest :- Substitute(t, s[1..]);
      Ok([head] + rest)
  }

  /** `ppu_to_numeric` on a canonical plate: the letters become their codes
      and the six resulting digits are read in base 10; the value always fits
      a u32, and its six-digit zero-padded rendering is the substituted form. */
  function PpuToNumeric(t: Tables, normalized: string): (r: Result<Rut.U32, PpuError>)
    requires IsCanonical(normalized)
    ensures r.Ok? <==> Substitute(t, normalized).Ok?
    ensures r.Err? ==> r.error == Substitute(t, normalized).error
    ensures r.Ok? ==> r.value < 1000000 && Rut.Render(r.value, 6) == Substitute(t, normalized).value
  {
    var digits :- Substitute(t, normalized);
    Rut.ParseDecimalBound(digits);
    assert Rut.Pow10(6) == 1000000;
    Rut.RenderParseDecimal(digits);
    Ok(Rut.ParseDecimal(digits))
  }

  // ---------------------------------------------------------------------
  // The Ppu value object.

  /** A constructed plate: immutable, with `verifier` fixed at construction. */
  datatype Ppu = Ppu(raw: string, numeric: Rut.U32, normalized: string, verifier: char, format: PpuFormat) {

    /** The derived `complete` representation: normalized form, a hyphen,
        the check character. */
    function Complete(): (c: string)
      ensures |c| == |normalized| + 2
      ensures c[..|normalized|] == normalized
      ensures c[|normalized|] == '-' && c[|normalized| + 1] == verifier
    {
      normalized + "-" + [verifier]
    }

    /** The format tag; it tells the two layouts apart. */
    function Format(): (f: string)
      ensures f == "LLLNN" <==> format == LLLNN
      ensures f == "LLLLNN" <==> format == LLLLNN
    {
      format.AsStr()
    }
  }

  /** What `Ppu::new` can raise: a plate error or a verifier error. */
  datatype PpuNewError = PlateError(plate: PpuError) | VerifierFailure(failure: VerifierError)

  /** `Ppu::new`: normalize, read the format, convert to numeric, compute the
      check character; the first failure aborts and no object is built. */
  function NewPpu(t: Tables, raw: string): (r: Result<Ppu, PpuNewError>)
    ensures r.Ok? <==> NormalizePpu(raw).Ok? && PpuToNumeric(t, NormalizePpu(raw).value).Ok?
    ensures NormalizePpu(raw).Err? ==> r == Err(PlateError(NormalizePpu(raw).error))
    ensures NormalizePpu(raw).Ok? && PpuToNumeric(t, NormalizePpu(raw).value).Err? ==>
              r == Err(PlateError(PpuToNumeric(t, NormalizePpu(raw).value).error))
    ensures r.Ok? ==>
              && r.value.raw == raw
              && r.value.normalized == NormalizePpu(raw).value
              && r.value.numeric == PpuToNumeric(t, r.value.normalized).value
              && r.value.format == GetPpuFormat(raw).value
              && Rut.IsCheckChar(r.value.numeric, r.value.verifier)
  {
    var normalized :- NormalizePpu(raw).MapFailure(e => PlateError(e));
    var format := GetPpuFormat(raw).value;
    var numeric :- PpuToNumeric(t, normalized).MapFailure(e => PlateError(e));
    var verifier := Rut.CalculateVerifier(numeric).value;
    Ok(Ppu(raw, numeric, normalized, verifier, format))
  }

  /** Every constructed plate is consistent: its check character is the one
      computed from its numeric body, and the last character of `complete`
      validates against that body. */
  lemma ConstructedPpuIsConsistent(t: Tables, raw: string)
    requires NewPpu(t, raw).Ok?
    ensures var p := NewPpu(t, raw).value;
            && Rut.CalculateVerifier(p.numeric) == Ok(p.verifier)
            && |p.Complete()| == 8
            && p.Complete()[..6] == p.normalized
            && p.Complete()[6] == '-'
            && Rut.ValidateRut(p.numeric, p.Complete()[7..]) == Ok(true)
  {
    var p := NewPpu(t, raw).value;
    Rut.CheckCharIsUnique(p.numeric, p.verifier);
    assert p.Complete()[7..] == [p.verifier];
    Rut.ValidateAcceptsComputed(p.numeric);
  }

  // ---------------------------------------------------------------------
  // The scenarios of the test suite. Only the codes of the letters these
  // plates use are pinned, so each scenario holds for every table with them.

  /** Upper-casing read off character by character. */
  lemma UpperMatches(s: string, u: string)
    requires |s| == |u| && forall i :: 0 <= i < |s| ==> UpperChar(s[i]) == u[i]
    ensures Upper(s) == u
  {
  }

  lemma UpperBBC12()
    ensures Upper("bbc12") == "BBC12" && Upper("BBC12") == "BBC12"
  {
    UpperMatches("bbc12", "BBC12");
    UpperMatches("BBC12", "BBC12");
  }

  lemma UpperBBCD12()
    ensures Upper("bbcd12") == "BBCD12"
  {
    UpperMatches("bbcd12", "BBCD12");
  }

  /** `normalize_ppu("bbc12")` is "BBC012" and `normalize_ppu("bbcd12")` is
      "BBCD12". */
  lemma NormalizeOracle()
    ensures NormalizePpu("bbc12") == Ok("BBC012")
    ensures NormalizePpu("bbcd12") == Ok("BBCD12")
  {
    UpperBBC12();
    UpperBBCD12();
    assert HasShape("bbc12", 3, 2);
    assert HasShape("bbcd12", 4, 2);
    assert "BBC12"[..3] == "BBC" && "BBC12"[3..] == "12";
    assert "BBC" + "0" + "12" == "BBC012";
  }

  /** A plate built from parts already computed. */
  lemma NewPpuFromParts(t: Tables, raw: string, normalized: string, f: PpuFormat, numeric: Rut.U32, verifier: char)
    requires NormalizePpu(raw) == Ok(normalized) && GetPpuFormat(raw) == Ok(f)
    requires PpuToNumeric(t, normalized) == Ok(numeric)
    requires Rut.CalculateVerifier(numeric) == Ok(verifier)
    ensures NewPpu(t, raw) == Ok(Ppu(raw, numeric, normalized, verifier, f))
  {
  }

  /** `Ppu("PHZF55")`: normalized unchanged, numeric 69455, check character
      'K', format "LLLLNN". */
  lemma PpuOraclePHZF55(t: Tables)
    requires 'P' in t.letters && t.letters['P'] == '0'
    requires 'H' in t.letters && t.letters['H'] == '6'
    requires 'Z' in t.letters && t.letters['Z'] == '9'
    requires 'F' in t.letters && t.letters['F'] == '4'
    ensures NewPpu(t, "PHZF55") == Ok(Ppu("PHZF55", 69455, "PHZF55", 'K', LLLLNN))
  {
    NormalizePHZF55();
    NumericPHZF55(t);
    VerifierOf69455();
    NewPpuFromParts(t, "PHZF55", "PHZF55", LLLLNN, 69455, 'K');
  }

  /** That plate's `complete` form is "PHZF55-K". */
  lemma CompletePHZF55()
    ensures Ppu("PHZF55", 69455, "PHZF55", 'K', LLLLNN).Complete() == "PHZF55-K"
  {
    assert "PHZF55" + "-" + ['K'] == "PHZF55-K";
  }

  lemma NormalizePHZF55()
    ensures NormalizePpu("PHZF55") == Ok("PHZF55") && GetPpuFormat("PHZF55") == Ok(LLLLNN)
  {
    UpperMatches("PHZF55", "PHZF55");
    assert HasShape("PHZF55", 4, 2);
    NormalizeIdempotentOnFourLetters("PHZF55");
  }

  lemma NumericPHZF55(t: Tables)
    requires 'P' in t.letters && t.letters['P'] == '0'
    requires 'H' in t.letters && t.letters['H'] == '6'
    requires 'Z' in t.letters && t.letters['Z'] == '9'
    requires 'F' in t.letters && t.letters['F'] == '4'
    ensures IsCanonical("PHZF55") && PpuToNumeric(t, "PHZF55") == Ok(69455)
    ensures Rut.Render(69455, 6) == "069455"
  {
    SubstitutePHZF55(t);
    Parse069455();
  }

  lemma SubstitutePHZF55(t: Tables)
    requires 'P' in t.letters && t.letters['P'] == '0'
    requires 'H' in t.letters && t.letters['H'] == '6'
    requires 'Z' in t.letters && t.letters['Z'] == '9'
    requires 'F' in t.letters && t.letters['F'] == '4'
    ensures IsCanonical("PHZF55") && Substitute(t, "PHZF55") == Ok("069455")
  {
    var plate := "PHZF55";
    assert plate[0] == 'P' && plate[1] == 'H' && plate[2] == 'Z' && plate[3] == 'F';
    assert plate[4] == '5' && plate[5] == '5';
    var digits := Substitute(t, plate);
    assert digits.Ok?;
    assert digits.value[0] == '0' && digits.value[1] == '6' && digits.value[2] == '9';
    assert digits.value[3] == '4' && digits.value[4] == '5' && digits.value[5] == '5';
    assert digits.value == "069455";
  }

  lemma VerifierOf69455()
    ensures Rut.CalculateVerifier(69455) == Ok('K')
  {
    SumOf69455();
    Rut.CheckFromSum(69455, 122, 'K');
  }

  lemma Parse069455()
    ensures AllDigits("069455") && Rut.ParseDecimal("069455") == 69455
  {
    assert "069455"[..5] == "06945";
    assert "06945"[..4] == "0694";
    assert "0694"[..3] == "069";
    assert "069"[..2] == "06";
    assert "06"[..1] == "0";
    assert "0"[..0] == "";
    assert Rut.ParseDecimal("0") == 0;
    assert Rut.ParseDecimal("06") == 6;
    assert Rut.ParseDecimal("069") == 69;
    assert Rut.ParseDecimal("0694") == 694;
    assert Rut.ParseDecimal("06945") == 6945;
  }

  lemma SumOf69455()
    ensures Rut.WeightedSum(69455, 0) == 122
  {
    assert Rut.WeightedSum(6, 4) == 36 + Rut.WeightedSum(0, 5);
    assert Rut.WeightedSum(69, 3) == 45 + Rut.WeightedSum(6, 4);
    assert Rut.WeightedSum(694, 2) == 16 + Rut.WeightedSum(69, 3);
    assert Rut.WeightedSum(6945, 1) == 15 + Rut.WeightedSum(694, 2);
    assert Rut.WeightedSum(69455, 0) == 10 + Rut.WeightedSum(6945, 1);
  }

  /** `Ppu("BBC12")` is normalized to "BBC012" and reports format "LLLNN". */
  lemma PpuOracleBBC12(t: Tables)
    requires 'B' in t.letters && 'C' in t.letters
    ensures NewPpu(t, "BBC12").Ok?
    ensures NewPpu(t, "BBC12").value.normalized == "BBC012"
    ensures NewPpu(t, "BBC12").value.Format() == "LLLNN"
  {
    NormalizeBBC12();
    SubstituteBBC012(t);
  }

  lemma SubstituteBBC012(t: Tables)
    requires 'B' in t.letters && 'C' in t.letters
    ensures IsCanonical("BBC012") && PpuToNumeric(t, "BBC012").Ok?
  {
    var plate := "BBC012";
    assert plate[0] == 'B' && plate[1] == 'B' && plate[2] == 'C' && plate[3] == '0';
    assert plate[4] == '1' && plate[5] == '2';
    assert Substitute(t, plate).Ok?;
  }

  lemma NormalizeBBC12()
    ensures NormalizePpu("BBC12") == Ok("BBC012") && GetPpuFormat("BBC12") == Ok(LLLNN)
  {
    UpperBBC12();
    assert HasShape("BBC12", 3, 2);
    assert "BBC12"[..3] == "BBC" && "BBC12"[3..] == "12";
    assert "BBC" + "0" + "12" == "BBC012";
  }
}

=== FILE: results.dfy ===
/** The success/error sum type every fallible operation of the model returns,
    standing for Rust's `Result<T, E>`. */
module Results {

  /** Rust's `Option<T>`. */
  datatype Option<+T> = None | Some(value: T)

  datatype Result<+T, +E> = Ok(value: T) | Err(error: E) {

    predicate IsFailure() {
      Err?
    }

    function PropagateFailure<U>(): Result<U, E>
      requires Err?
    {
      Err(error)
    }

    function Extract(): T
      requires Ok?
    {
      value
    }

    /** Converts the error, leaving a success untouched. */
    function MapFailure<F>(convert: E -> F): (r: Result<T, F>)
      ensures Ok? <==> r.Ok?
      ensures Ok? ==> r.value == value
      ensures Err? ==> r.error == convert(error)
    {
      match this
      case Ok(v) => Ok(v)
      case Err(e) => Err(convert(e))
    }
  }
}

=== FILE: rut.dfy ===
/** The RUT check character: the weighted modulo-11 scheme over the decimal
    digits of an identifier body, and the validator built on it. */
module Rut {
  import opened Results
  import opened Errors
  import opened Text

  /** Rust's `u32`. */
  type U32 = x: int | 0 <= x < 0x1_0000_0000

  const U32_LIMIT: nat := 0x1_0000_0000

  /** Weight of the digit at position i, counted from the least significant
      digit: the cycle 2, 3, 4, 5, 6, 7, 2, 3, ... */
  function Weight(i: nat): (w: nat)
    ensures 2 <= w <= 7
  {
    2 + i % 6
  }

  /** Sum of the digits of n, least significant first, each multiplied by
      the weight of its position; the first digit of n sits at position i. */
  function WeightedSum(n: nat, i: nat): nat
    decreases n
  {
    if n == 0 then 0 else (n % 10) * Weight(i) + WeightedSum(n / 10, i + 1)
  }

  /** `11 - (sum mod 11)`, the raw value before mapping to a character. */
  function Remainder(n: nat): (r: int)
    ensures 1 <= r <= 11
  {
    11 - WeightedSum(n, 0) % 11
  }

  /** The check alphabet: '0'..'9' and 'K'. */
  predicate IsVerifierChar(c: char) {
    IsAsciiDigit(c) || c == 'K'
  }

  /** The value a check character stands for in the modulo-11 equation. */
  function CharValue(c: char): (v: nat)
    requires IsVerifierChar(c)
    ensures v <= 10
  {
    if c == 'K' then 10 else c as int - '0' as int
  }

  /** Reference definition of the check character: the one member of the
      alphabet that brings the weighted sum to a multiple of 11. */
  predicate IsCheckChar(n: nat, c: char) {
    IsVerifierChar(c) && (WeightedSum(n, 0) + CharValue(c)) % 11 == 0
  }

  /** Maps a remainder to its character: 11 is '0', 10 is 'K', 0..9 their
      digit; anything else is the defensive `UnexpectedComputation`. */
  function VerifierOf(r: int): (v: Result<char, VerifierError>)
    ensures v.Ok? <==> 0 <= r <= 11
    ensures v.Ok? ==> IsVerifierChar(v.value) && CharValue(v.value) == r % 11
    ensures v.Err? ==> v.error == UnexpectedComputation
  {
    if r == 11 then Ok('0')
    else if r == 10 then Ok('K')
    else if 0 <= r <= 9 then Ok(('0' as int + r) as char)
    else Err(UnexpectedComputation)
  }

  /** `calculate_verifier(digits: u32)`. It never fails: the remainder always
      lies in 1..11, so `UnexpectedComputation` is unreachable. */
  function CalculateVerifier(digits: U32): (v: Result<char, VerifierError>)
    ensures v.Ok? && IsCheckChar(digits, v.value)
  {
    var r := Remainder(digits);
    var v := VerifierOf(r);
    assert (WeightedSum(digits, 0) + r % 11) % 11 == 0 by {
      ModuloComplement(WeightedSum(digits, 0));
    }
    v
  }

  lemma ModuloComplement(s: nat)
    ensures (s + (11 - s % 11) % 11) % 11 == 0
  {
    var q := s / 11;
    var m := s % 11;
    assert s == 11 * q + m;
    if m == 0 {
      assert (11 - m) % 11 == 0;
    } else {
      assert (11 - m) % 11 == 11 - m;
      assert s + (11 - m) == 11 * (q + 1);
    }
  }

  /** The computed character is the ONLY member of the alphabet satisfying the
      modulo-11 equation: both directions of the reference definition. */
  lemma {:induction false} CheckCharIsUnique(n: U32, c: char)
    ensures IsCheckChar(n, c) <==> CalculateVerifier(n) == Ok(c)
  {
    var v := CalculateVerifier(n).value;
    if IsCheckChar(n, c) {
      var s := WeightedSum(n, 0);
      assert (s + CharValue(c)) % 11 == 0 && (s + CharValue(v)) % 11 == 0;
      SameResidueBelowEleven(s, CharValue(c), CharValue(v));
      if c != v {
        CharValueInjective(c, v);
      }
    }
  }

  lemma SameResidueBelowEleven(s: nat, a: nat, b: nat)
    requires a <= 10 && b <= 10
    requires (s + a) % 11 == 0 && (s + b) % 11 == 0
    ensures a == b
  {
    var p := (s + a) / 11;
    var q := (s + b) / 11;
    assert s + a == 11 * p && s + b == 11 * q;
    assert a - b == 11 * (p - q);
  }

  lemma CharValueInjective(c: char, d: char)
    requires IsVerifierChar(c) && IsVerifierChar(d) && c != d
    ensures CharValue(c) != CharValue(d)
  {
  }

  /** The verifier of n read off a precomputed weighted sum: the character
      that completes the sum to a multiple of 11. */
  lemma CheckFromSum(n: U32, sum: nat, c: char)
    requires WeightedSum(n, 0) == sum && IsVerifierChar(c) && (sum + CharValue(c)) % 11 == 0
    ensures CalculateVerifier(n) == Ok(c)
  {
    var v := CalculateVerifier(n).value;
    assert IsCheckChar(n, v);
    SameResidueBelowEleven(sum, CharValue(c), CharValue(v));
    if c != v {
      CharValueInjective(c, v);
    }
  }

  // The oracle values of the test suite, one lemma per value.

  lemma VerifierOf12345678()
    ensures CalculateVerifier(12345678) == Ok('5')
  {
    SumOf12345678();
    CheckFromSum(12345678, 138, '5');
  }

  lemma VerifierOf11222333()
    ensures CalculateVerifier(11222333) == Ok('9')
  {
    SumOf11222333();
    CheckFromSum(11222333, 68, '9');
  }

  lemma VerifierOf9000000()
    ensures CalculateVerifier(9000000) == Ok('4')
  {
    SumOf9000000();
    CheckFromSum(9000000, 18, '4');
  }

  lemma VerifierOf18305086()
    ensures CalculateVerifier(18305086) == Ok('9')
  {
    SumOf18305086();
    CheckFromSum(18305086, 101, '9');
  }

  lemma VerifierOf14682029()
    ensures CalculateVerifier(14682029) == Ok('8')
  {
    SumOf14682029();
    CheckFromSum(14682029, 135, '8');
  }

  // Weighted sums of the oracle values, one digit per step.

  lemma SumOf12345678()
    ensures WeightedSum(12345678, 0) == 138
  {
    assert WeightedSum(1, 7) == 3 + WeightedSum(0, 8);
    assert WeightedSum(12, 6) == 4 + WeightedSum(1, 7);
    assert WeightedSum(123, 5) == 21 + WeightedSum(12, 6);
    assert WeightedSum(1234, 4) == 24 + WeightedSum(123, 5);
    assert WeightedSum(12345, 3) == 25 + WeightedSum(1234, 4);
    assert WeightedSum(123456, 2) == 24 + WeightedSum(12345, 3);
    assert WeightedSum(1234567, 1) == 21 + WeightedSum(123456, 2);
    assert WeightedSum(12345678, 0) == 16 + WeightedSum(1234567, 1);
  }

  lemma SumOf11222333()
    ensures WeightedSum(11222333, 0) == 68
  {
    assert WeightedSum(1, 7) == 3 + WeightedSum(0, 8);
    assert WeightedSum(11, 6) == 2 + WeightedSum(1, 7);
    assert WeightedSum(112, 5) == 14 + WeightedSum(11, 6);
    assert WeightedSum(1122, 4) == 12 + WeightedSum(112, 5);
    assert WeightedSum(11222, 3) == 10 + WeightedSum(1122, 4);
    assert WeightedSum(112223, 2) == 12 + WeightedSum(11222, 3);
    assert WeightedSum(1122233, 1) == 9 + WeightedSum(112223, 2);
    assert WeightedSum(11222333, 0) == 6 + WeightedSum(1122233, 1);
  }

  lemma SumOf9000000()
    ensures WeightedSum(9000000, 0) == 18
  {
    assert WeightedSum(9, 6) == 18 + WeightedSum(0, 7);
    assert WeightedSum(90, 5) == WeightedSum(9, 6);
    assert WeightedSum(900, 4) == WeightedSum(90, 5);
    assert WeightedSum(9000, 3) == WeightedSum(900, 4);
    assert WeightedSum(90000, 2) == WeightedSum(9000, 3);
    assert WeightedSum(900000, 1) == WeightedSum(90000, 2);
    assert WeightedSum(9000000, 0) == WeightedSum(900000, 1);
  }

  lemma SumOf18305086()
    ensures WeightedSum(18305086, 0) == 101
  {
    assert WeightedSum(1, 7) == 3 + WeightedSum(0, 8);
    assert WeightedSum(18, 6) == 16 + WeightedSum(1, 7);
    assert WeightedSum(183, 5) == 21 + WeightedSum(18, 6);
    assert WeightedSum(1830, 4) == WeightedSum(183, 5);
    assert WeightedSum(18305, 3) == 25 + WeightedSum(1830, 4);
    assert WeightedSum(183050, 2) == WeightedSum(18305, 3);
    assert WeightedSum(1830508, 1) == 24 + WeightedSum(183050, 2);
    assert WeightedSum(18305086, 0) == 12 + WeightedSum(1830508, 1);
  }

  lemma SumOf14682029()
    ensures WeightedSum(14682029, 0) == 135
  {
    assert WeightedSum(1, 7) == 3 + WeightedSum(0, 8);
    assert WeightedSum(14, 6) == 8 + WeightedSum(1, 7);
    assert WeightedSum(146, 5) == 42 + WeightedSum(14, 6);
    assert WeightedSum(1468, 4) == 48 + WeightedSum(146, 5);
    assert WeightedSum(14682, 3) == 10 + WeightedSum(1468, 4);
    assert WeightedSum(146820, 2) == WeightedSum(14682, 3);
    assert WeightedSum(1468202, 1) == 6 + WeightedSum(146820, 2);
    assert WeightedSum(14682029, 0) == 18 + WeightedSum(1468202, 1);
  }

  // ---------------------------------------------------------------------
  // Decimal strings: the string front-end the test suite calls.

  function DigitValue(c: char): nat
    requires IsAsciiDigit(c)
  {
    c as int - '0' as int
  }

  function DigitChar(d: nat): (c: char)
    requires d <= 9
    ensures IsAsciiDigit(c) && DigitValue(c) == d
  {
    ('0' as int + d) as char
  }

  function Pow10(k: nat): (p: nat)
    ensures p >= 1
  {
    if k == 0 then 1 else 10 * Pow10(k - 1)
  }

  /** Ordinary base-10 reading of an all-digit string; leading zeros are
      allowed and add nothing. */
  function ParseDecimal(s: string): nat
    requires AllDigits(s)
  {
    if s == [] then 0 else ParseDecimal(s[..|s| - 1]) * 10 + DigitValue(s[|s| - 1])
  }

  /** The low `width` decimal digits of n, zero-padded on the left. */
  function Render(n: nat, width: nat): (r: string)
    ensures |r| == width && AllDigits(r)
  {
    if width == 0 then [] else Render(n / 10, width - 1) + [DigitChar(n % 10)]
  }

  lemma {:induction false} ParseDecimalBound(s: string)
    requires AllDigits(s)
    ensures ParseDecimal(s) < Pow10(|s|)
  {
    if s != [] {
      ParseDecimalBound(s[..|s| - 1]);
    }
  }

  /** Rendering a string's value at the string's own width gives the string
      back: leading zeros are restored. */
  lemma {:induction false} RenderParseDecimal(s: string)
    requires AllDigits(s)
    ensures Render(ParseDecimal(s), |s|) == s
  {
    if s != [] {
      var init := s[..|s| - 1];
      var n := ParseDecimal(s);
      assert n / 10 == ParseDecimal(init) && n % 10 == DigitValue(s[|s| - 1]);
      RenderParseDecimal(init);
      assert s == init + [s[|s| - 1]];
    }
  }

  /** Rust's `Display` for an unsigned integer: base 10, no leading zeros,
      "0" for zero. */
  function DecimalString(n: nat): (r: string)
    ensures 1 <= |r| && AllDigits(r)
    ensures |r| > 1 ==> r[0] != '0'
  {
    if n < 10 then [DigitChar(n)] else DecimalString(n / 10) + [DigitChar(n % 10)]
  }

  /** Reading back a rendered number gives the number. */
  lemma {:induction false} ParseDecimalString(n: nat)
    ensures ParseDecimal(DecimalString(n)) == n
  {
    var r := DecimalString(n);
    if n < 10 {
      assert r[..0] == [];
    } else {
      assert r[..|r| - 1] == DecimalString(n / 10);
      ParseDecimalString(n / 10);
    }
  }

  /** The weighted sum read off a digit string: the last character is the
      least significant digit and takes the weight of position i. */
  function DigitSum(s: string, i: nat): nat
    requires AllDigits(s)
  {
    if s == [] then 0 else DigitValue(s[|s| - 1]) * Weight(i) + DigitSum(s[..|s| - 1], i + 1)
  }

  /** The checksum sum computed on the number is the one read off its digit
      string, leading zeros included (they weigh nothing). */
  lemma {:induction false} WeightedSumReadsDigits(s: string, i: nat)
    requires AllDigits(s)
    ensures WeightedSum(ParseDecimal(s), i) == DigitSum(s, i)
  {
    if s != [] {
      var init := s[..|s| - 1];
      var n := ParseDecimal(s);
      assert n / 10 == ParseDecimal(init) && n % 10 == DigitValue(s[|s| - 1]);
      WeightedSumReadsDigits(init, i + 1);
      if n == 0 {
        assert ParseDecimal(init) == 0 && DigitValue(s[|s| - 1]) == 0;
      }
    }
  }

  /** A leading zero never changes the value. */
  lemma {:induction false} LeadingZeroIgnored(s: string)
    requires AllDigits(s)
    ensures AllDigits("0" + s) && ParseDecimal("0" + s) == ParseDecimal(s)
  {
    if s != [] {
      var init := s[..|s| - 1];
      assert ("0" + s)[..|s|] == "0" + init;
      LeadingZeroIgnored(init);
    }
  }

  /** Reads the digits argument of the string front-end: empty input,
      a non-digit, or a value beyond u32 are rejected. */
  function ParseDigits(digits: string): (r: Result<U32, VerifierError>)
    ensures r == Err(EmptyDigits) <==> digits == []
    ensures r == Err(InvalidDigits(digits)) <==>
              digits != [] && (!AllDigits(digits) || ParseDecimal(digits) >= U32_LIMIT)
    ensures r.Ok? ==> AllDigits(digits) && r.value == ParseDecimal(digits)
  {
    if digits == [] then Err(EmptyDigits)
    else if !AllDigits(digits) then Err(InvalidDigits(digits))
    else if ParseDecimal(digits) >= U32_LIMIT then Err(InvalidDigits(digits))
    else Ok(ParseDecimal(digits))
  }

  /** `calculate_verifier` called with a digit string. */
  function CalculateVerifierText(digits: string): (v: Result<char, VerifierError>)
    ensures v.Ok? <==> ParseDigits(digits).Ok?
    ensures v.Ok? ==> IsCheckChar(ParseDecimal(digits), v.value)
    ensures v.Err? ==> v.error == ParseDigits(digits).error
  {
    var n :- ParseDigits(digits);
    CalculateVerifier(n)
  }

  /** Zero-padding the digits never changes the check character. */
  lemma LeadingZeroKeepsVerifier(s: string)
    requires s != []
    ensures CalculateVerifierText("0" + s).Ok? <==> CalculateVerifierText(s).Ok?
    ensures CalculateVerifierText(s).Ok? ==> CalculateVerifierText("0" + s) == CalculateVerifierText(s)
  {
    if AllDigits(s) {
      LeadingZeroIgnored(s);
    } else {
      var i :| 0 <= i < |s| && !IsAsciiDigit(s[i]);
      assert ("0" + s)[i + 1] == s[i];
    }
  }

  // ---------------------------------------------------------------------
  // Validation.

  /** Reads a verifier candidate: one character of '0'..'9', 'K' or 'k'; a
      lower-case 'k' is read as 'K'. */
  function ParseVerifier(verifier: string): (r: Result<char, VerifierError>)
    ensures r == Err(EmptyVerifier) <==> verifier == []
    ensures r == Err(InvalidVerifier(verifier)) <==>
              verifier != [] && (|verifier| != 1 || !IsVerifierChar(UpperChar(verifier[0])))
    ensures r.Ok? ==> |verifier| == 1 && r.value == UpperChar(verifier[0]) && IsVerifierChar(r.value)
  {
    if verifier == [] then Err(EmptyVerifier)
    else if |verifier| != 1 || !IsVerifierChar(UpperChar(verifier[0])) then Err(InvalidVerifier(verifier))
    else Ok(UpperChar(verifier[0]))
  }

  /** `validate_rut(digits: u32, verifier: &str)`: true exactly when the
      candidate is the check character of digits. */
  function ValidateRut(digits: U32, verifier: string): (r: Result<bool, VerifierError>)
    ensures r.Err? <==> ParseVerifier(verifier).Err?
    ensures r.Err? ==> r.error == ParseVerifier(verifier).error
    ensures r.Ok? ==> (r.value <==> IsCheckChar(digits, UpperChar(verifier[0])))
  {
    var c :- ParseVerifier(verifier);
    var expected := CalculateVerifier(digits).value;
    CheckCharIsUnique(digits, c);
    Ok(c == expected)
  }

  /** `validate_rut` called with a digit string. Empty inputs are reported
      first, digits before verifier; then malformed inputs, in the same order. */
  function ValidateRutText(digits: string, verifier: string): (r: Result<bool, VerifierError>)
    ensures digits == [] ==> r == Err(EmptyDigits)
    ensures digits != [] && verifier == [] ==> r == Err(EmptyVerifier)
    ensures digits != [] && verifier != [] && ParseDigits(digits).Err? ==> r == Err(InvalidDigits(digits))
    ensures ParseDigits(digits).Ok? ==> r == ValidateRut(ParseDigits(digits).value, verifier)
  {
    if digits == [] then Err(EmptyDigits)
    else if verifier == [] then Err(EmptyVerifier)
    else
      var n :- ParseDigits(digits);
      ValidateRut(n, verifier)
  }

  /** Every number validates against its own computed check character. */
  lemma ValidateAcceptsComputed(n: U32)
    ensures ValidateRut(n, [CalculateVerifier(n).value]) == Ok(true)
  {
  }

  /** Every other member of the alphabet is refused, without an error. */
  lemma ValidateRefusesOthers(n: U32, c: char)
    requires IsVerifierChar(c) && c != CalculateVerifier(n).value
    ensures ValidateRut(n, [c]) == Ok(false)
  {
    CheckCharIsUnique(n, c);
  }

  /** The validation scenarios of the test suite. */
  lemma ValidateRutOracle()
    ensures ValidateRutText("12345678", "5") == Ok(true)
    ensures ValidateRutText("11222333", "9") == Ok(true)
    ensures ValidateRutText("9000000", "4") == Ok(true)
    ensures ValidateRutText("1", "9") == Ok(true)
    ensures ValidateRutText("12345678", "0") == Ok(false)
    ensures ValidateRutText("12345678", "K") == Ok(false)
  {
    Validate12345678();
    Validate11222333();
    Validate9000000();
    assert "1"[..0] == "";
    assert ParseDecimal("1") == 1;
    VerifierOf1();
  }

  lemma VerifierOf1()
    ensures CalculateVerifier(1) == Ok('9')
  {
    assert WeightedSum(1, 0) == 2 + WeightedSum(0, 1);
  }

  lemma Validate12345678()
    ensures ValidateRutText("12345678", "5") == Ok(true)
    ensures ValidateRutText("12345678", "0") == Ok(false)
    ensures ValidateRutText("12345678", "K") == Ok(false)
  {
    Parse12345678();
    VerifierOf12345678();
    ValidateRefusesOthers(12345678, '0');
    ValidateRefusesOthers(12345678, 'K');
  }

  lemma Validate11222333()
    ensures ValidateRutText("11222333", "9") == Ok(true)
  {
    Parse11222333();
    VerifierOf11222333();
  }

  lemma Validate9000000()
    ensures ValidateRutText("9000000", "4") == Ok(true)
  {
    Parse9000000();
    VerifierOf9000000();
  }

  // Decimal readings of the oracle strings, one digit per step.

  lemma Parse12345678()
    ensures AllDigits("12345678") && ParseDecimal("12345678") == 12345678
  {
    assert "12345678"[..7] == "1234567";
    assert "1234567"[..6] == "123456";
    assert "123456"[..5] == "12345";
    assert "12345"[..4] == "1234";
    assert "1234"[..3] == "123";
    assert "123"[..2] == "12";
    assert "12"[..1] == "1";
    assert "1"[..0] == "";
    assert ParseDecimal("1") == 1;
    assert ParseDecimal("12") == 12;
    assert ParseDecimal("123") == 123;
    assert ParseDecimal("1234") == 1234;
    assert ParseDecimal("12345") == 12345;
    assert ParseDecimal("123456") == 123456;
    assert ParseDecimal("1234567") == 1234567;
  }

  lemma Parse11222333()
    ensures AllDigits("11222333") && ParseDecimal("11222333") == 11222333
  {
    assert "11222333"[..7] == "1122233";
    assert "1122233"[..6] == "112223";
    assert "112223"[..5] == "11222";
    assert "11222"[..4] == "1122";
    assert "1122"[..3] == "112";
    assert "112"[..2] == "11";
    assert "11"[..1] == "1";
    assert "1"[..0] == "";
    assert ParseDecimal("1") == 1;
    assert ParseDecimal("11") == 11;
    assert ParseDecimal("112") == 112;
    assert ParseDecimal("1122") == 1122;
    assert ParseDecimal("11222") == 11222;
    assert ParseDecimal("112223") == 112223;
    assert ParseDecimal("1122233") == 1122233;
  }

  lemma Parse9000000()
    ensures AllDigits("9000000") && ParseDecimal("9000000") == 9000000
  {
    assert "9000000"[..6] == "900000";
    assert "900000"[..5] == "90000";
    assert "90000"[..4] == "9000";
    assert "9000"[..3] == "900";
    assert "900"[..2] == "90";
    assert "90"[..1] == "9";
    assert "9"[..0] == "";
    assert ParseDecimal("9") == 9;
    assert ParseDecimal("90") == 90;
    assert ParseDecimal("900") == 900;
    assert ParseDecimal("9000") == 9000;
    assert ParseDecimal("90000") == 90000;
    assert ParseDecimal("900000") == 900000;
  }

}

=== FILE: text.dfy ===
/** Character and string helpers shared by the identifier engine and the HTTP
    clients: Rust's `char::is_whitespace`, `str::trim`, ASCII case mapping and
    the digit/letter classes. */
module Text {

  /** Rust's `char::is_whitespace`: the Unicode White_Space property. */
  predicate IsWhitespace(c: char) {
    || ('\t' <= c <= '\r')
    || c == ' '
    || c == '\U{0085}'
    || c == '\U{00A0}'
    || c == '\U{1680}'
    || ('\U{2000}' <= c <= '\U{200A}')
    || c == '\U{2028}'
    || c == '\U{2029}'
    || c == '\U{202F}'
    || c == '\U{205F}'
    || c == '\U{3000}'
  }

  predicate AllWhitespace(s: string) {
    forall i :: 0 <= i < |s| ==> IsWhitespace(s[i])
  }

  /** The first index at or after i that does not hold whitespace, or |s|. */
  function SkipForward(s: string, i: nat): (k: nat)
    requires i <= |s|
    ensures i <= k <= |s|
    ensures forall j :: i <= j < k ==> IsWhitespace(s[j])
    ensures k == |s| || !IsWhitespace(s[k])
    decreases |s| - i
  {
    if i == |s| || !IsWhitespace(s[i]) then i else SkipForward(s, i + 1)
  }

  /** The index just past the last non-whitespace character of s[lo..hi],
      or lo when there is none. */
  function SkipBackward(s: string, lo: nat, hi: nat): (k: nat)
    requires lo <= hi <= |s|
    ensures lo <= k <= hi
    ensures forall j :: k <= j < hi ==> IsWhitespace(s[j])
    ensures k == lo || !IsWhitespace(s[k - 1])
    decreases hi - lo
  {
    if hi == lo || !IsWhitespace(s[hi - 1]) then hi else SkipBackward(s, lo, hi - 1)
  }

  /** Rust's `str::trim`: drops leading and trailing whitespace. */
  function Trim(s: string): (r: string)
    ensures |r| <= |s|
    ensures r == [] || (!IsWhitespace(r[0]) && !IsWhitespace(r[|r| - 1]))
  {
    var a := SkipForward(s, 0);
    var b := SkipBackward(s, a, |s|);
    s[a..b]
  }

  /** SkipForward stops at the first non-whitespace index and nowhere else. */
  lemma {:induction false} SkipForwardUnique(s: string, i: nat, k: nat)
    requires i <= k <= |s|
    requires forall j :: i <= j < k ==> IsWhitespace(s[j])
    requires k == |s| || !IsWhitespace(s[k])
    ensures SkipForward(s, i) == k
    decreases k - i
  {
    if i < k {
      SkipForwardUnique(s, i + 1, k);
    }
  }

  /** SkipBackward stops just past the last non-whitespace index and nowhere
      else. */
  lemma {:induction false} SkipBackwardUnique(s: string, lo: nat, hi: nat, k: nat)
    requires lo <= k <= hi <= |s|
    requires forall j :: k <= j < hi ==> IsWhitespace(s[j])
    requires k == lo || !IsWhitespace(s[k - 1])
    ensures SkipBackward(s, lo, hi) == k
    decreases hi - k
  {
    if k < hi {
      SkipBackwardUnique(s, lo, hi - 1, k);
    }
  }

  /** Trim keeps exactly the slice between a whitespace prefix and a
      whitespace suffix when that slice has no whitespace at either end. */
  lemma TrimBetween(x: string, a: nat, b: nat)
    requires a <= b <= |x|
    requires forall j :: 0 <= j < a ==> IsWhitespace(x[j])
    requires forall j :: b <= j < |x| ==> IsWhitespace(x[j])
    requires a == b || (!IsWhitespace(x[a]) && !IsWhitespace(x[b - 1]))
    ensures Trim(x) == x[a..b]
  {
    if a == b {
      SkipForwardUnique(x, 0, |x|);
    } else {
      SkipForwardUnique(x, 0, a);
      SkipBackwardUnique(x, a, |x|, b);
    }
  }

  /** Leading and trailing whitespace never change the trimmed result. */
  lemma TrimIgnoresPadding(p: string, s: string, q: string)
    requires AllWhitespace(p) && AllWhitespace(q)
    ensures Trim(p + s + q) == Trim(s)
  {
    var a := SkipForward(s, 0);
    var b := SkipBackward(s, a, |s|);
    PaddedFront(p, s, q, a);
    PaddedBack(p, s, q, b);
    assert (p + s + q)[|p|..|p| + |s|] == s;
    TrimEmbedded(p + s + q, |p|, s, a, b);
  }

  /** x holds s at offset o and only whitespace around s's trimmed part: x
      trims to what s trims to. */
  lemma TrimEmbedded(x: string, o: nat, s: string, a: nat, b: nat)
    requires o + |s| <= |x| && x[o..o + |s|] == s
    requires a == SkipForward(s, 0) && b == SkipBackward(s, a, |s|)
    requires forall j :: 0 <= j < o + a ==> IsWhitespace(x[j])
    requires forall j :: o + b <= j < |x| ==> IsWhitespace(x[j])
    ensures Trim(x) == Trim(s)
  {
    if a < b {
      assert x[o + a] == s[a] && x[o + b - 1] == s[b - 1];
    }
    TrimBetween(x, o + a, o + b);
    ShiftedSlice(x, o, s, a, b);
  }

  /** A slice of s read through a string that holds s at offset o. */
  lemma ShiftedSlice<T>(x: seq<T>, o: nat, s: seq<T>, a: nat, b: nat)
    requires o + |s| <= |x| && x[o..o + |s|] == s && a <= b <= |s|
    ensures x[o + a..o + b] == s[a..b]
  {
    forall j | 0 <= j < b - a
      ensures x[o + a..o + b][j] == s[a..b][j]
    {
      assert s[a + j] == x[o..o + |s|][a + j];
    }
  }

  /** Before the first non-whitespace character of s, a padded copy holds
      only whitespace. */
  lemma PaddedFront(p: string, s: string, q: string, a: nat)
    requires AllWhitespace(p) && a == SkipForward(s, 0)
    ensures forall j :: 0 <= j < |p| + a ==> IsWhitespace((p + s + q)[j])
  {
    var x := p + s + q;
    forall j | 0 <= j < |p| + a
      ensures IsWhitespace(x[j])
    {
      if j < |p| {
        assert x[j] == p[j];
      } else {
        assert x[j] == s[j - |p|];
      }
    }
  }

  /** After the last non-whitespace character of s, a padded copy holds only
      whitespace. */
  lemma PaddedBack(p: string, s: string, q: string, b: nat)
    requires AllWhitespace(q) && b == SkipBackward(s, SkipForward(s, 0), |s|)
    ensures forall j :: |p| + b <= j < |p + s + q| ==> IsWhitespace((p + s + q)[j])
  {
    var x := p + s + q;
    forall j | |p| + b <= j < |x|
      ensures IsWhitespace(x[j])
    {
      if j < |p| + |s| {
        assert x[j] == s[j - |p|];
      } else {
        assert x[j] == q[j - |p| - |s|];
      }
    }
  }

  predicate IsAsciiDigit(c: char) {
    '0' <= c <= '9'
  }

  predicate IsAsciiUpper(c: char) {
    'A' <= c <= 'Z'
  }

  predicate IsAsciiLower(c: char) {
    'a' <= c <= 'z'
  }

  predicate IsAsciiLetter(c: char) {
    IsAsciiUpper(c) || IsAsciiLower(c)
  }

  predicate IsAscii(c: char) {
    c < '\U{0080}'
  }

  predicate AllDigits(s: string) {
    forall i :: 0 <= i < |s| ==> IsAsciiDigit(s[i])
  }

  predicate AllLetters(s: string) {
    forall i :: 0 <= i < |s| ==> IsAsciiLetter(s[i])
  }

  predicate AllAscii(s: string) {
    forall i :: 0 <= i < |s| ==> IsAscii(s[i])
  }

  function UpperChar(c: char): (u: char)
    ensures IsAsciiLower(c) ==> IsAsciiUpper(u) && u as int == c as int - 32
    ensures !IsAsciiLower(c) ==> u == c
  {
    if IsAsciiLower(c) then (c as int - 32) as char else c
  }

  function LowerChar(c: char): (l: char)
    ensures IsAsciiUpper(c) ==> IsAsciiLower(l) && l as int == c as int + 32
    ensures !IsAsciiUpper(c) ==> l == c
  {
    if IsAsciiUpper(c) then (c as int + 32) as char else c
  }

  /** ASCII upper-casing, character by character. */
  function Upper(s: string): (r: string)
    ensures |r| == |s|
    ensures forall i :: 0 <= i < |s| ==> r[i] == UpperChar(s[i])
  {
    if s == [] then [] else [UpperChar(s[0])] + Upper(s[1..])
  }

  /** ASCII lower-casing, character by character. */
  function Lower(s: string): (r: string)
    ensures |r| == |s|
    ensures forall i :: 0 <= i < |s| ==> r[i] == LowerChar(s[i])
  {
    if s == [] then [] else [LowerChar(s[0])] + Lower(s[1..])
  }

  /** A string with no whitespace at either end is its own trim. */
  lemma TrimOfTrimmed(s: string)
    requires s == [] || (!IsWhitespace(s[0]) && !IsWhitespace(s[|s| - 1]))
    ensures Trim(s) == s
  {
    if s != [] {
      SkipForwardUnique(s, 0, 0);
      SkipBackwardUnique(s, 0, |s|, |s|);
    }
  }

  /** Trim leaves nothing exactly when the string is all whitespace. */
  lemma TrimEmptyIffBlank(s: string)
    ensures Trim(s) == [] <==> AllWhitespace(s)
  {
    var a := SkipForward(s, 0);
    var b := SkipBackward(s, a, |s|);
    if a < |s| {
      assert !IsWhitespace(s[a]);
      assert b > a;
    }
  }

  /** Trimming is idempotent: a trimmed string has nothing left to trim. */
  lemma TrimIdempotent(s: string)
    ensures Trim(Trim(s)) == Trim(s)
  {
    TrimOfTrimmed(Trim(s));
  }

  lemma {:induction false} LowerConcat(a: string, b: string)
    ensures Lower(a + b) == Lower(a) + Lower(b)
  {
    assert forall i :: 0 <= i < |a + b| ==> Lower(a + b)[i] == (Lower(a) + Lower(b))[i];
  }

  /** Lower-casing leaves whitespace alone. */
  lemma LowerKeepsWhitespace(p: string)
    requires AllWhitespace(p)
    ensures Lower(p) == p
  {
    assert forall i :: 0 <= i < |p| ==> !IsAsciiUpper(p[i]);
  }
}
